=== FILE: README.md ===
# Attendance portal: a verified model of its core

The attendance portal registers students, each with an id of the form
`STU####` and a QR image. It marks attendance when a student's QR code is
scanned, lists students and attendance, and logs admins in. This Dafny
project models the parts of the portal that decide what is stored and
what is answered:

- `js.dfy` (module `Js`): the JavaScript built-ins the handlers rely on.
  These are truthiness and `||`, `Array.prototype.find`/`filter`/`slice`,
  `Number.prototype.toString`, `padStart`, ASCII `toLowerCase` and `trim`.
  `Truthy`, `Or`, `OrDefault` and `Interpolate` are plain definitions that
  other contracts are written in. The rest carry their own contracts, or,
  for `trim`, the lemma `TrimSpec` beside it.
- `tables.dfy` (module `Tables`): the PostgreSQL tables `students`,
  `attendance` and `admins` as ordered sequences of rows in a `Database`
  class. It also holds the `POST /add-student` body and the `STU####` id
  scheme that both registration handlers share, with its round trip,
  injectivity, width and collision lemmas.
- `memory_storage.dfy` (module `MemoryStore`): the `MemoryStorage` class,
  the fallback store used when the database is unavailable. Its arrays and
  counters are fields, and its two inserting operations are methods that
  keep the class invariant (sequential ids, unique `student_id`, unique
  non-empty `email`, one mark per student per date). Its queries are
  functions.
- `server.dfy` (module `Server`): the server.js handlers, run against a
  `Database`:
  - `POST /add-student`
  - `POST /mark-attendance`
  - `GET /api/students`, which pages 20 at a time
  - `POST /dashboard`, which upgrades a plain-text password to a bcrypt
    hash after a match
- `server_clean.dfy` (module `ServerClean`): the simplified
  `POST /add-student` of server_clean.js. It is a pure function from the
  request and the `students` table to the reply and the new table.
- `attendance_server.dfy` (module `AttendanceServer`): the stand-alone
  QR attendance server. Its module-level `attendanceRecords` array is the
  field of a class. `POST /mark-attendance` appends to it at most once per
  student per day, and `GET /attendance` and `GET /attendance/today` read it.

Clocks are abstract. An `Instant` is a calendar day (an integer) plus
milliseconds within it. Two instants fall on the same day exactly when
their `day` fields are equal. bcrypt's `hash` and `compare` are function
parameters of the login handler.

Two facts about the source shape the model:

- memory-storage.js and server.js contain no connection-retry or
  fail-over code, so the model has none.
- `getAttendance` (memory-storage.js:98-120) keeps the stored order and
  has no cap, and the model does the same. The newest-first listing
  capped at 100 rows is `GET /api/attendance` (server.js:409-423), which
  is left out below.

## Model

| member | source | states |
|---|---|---|
| `Js.FindFirst` | memory-storage.js:34 | `find` as an index: the first element satisfying the predicate, none earlier satisfies it, and `None` exactly when no element does |
| `Js.Filter` | memory-storage.js:101-107 | `filter` keeps exactly the elements satisfying the predicate and never lengthens the array |
| `Js.FilterAppend` | attendance-server.js:102-104 | filtering distributes over concatenation, so the filter keeps stored order and an append only adds at the end |
| `Js.FilterKeepsDistinct` | attendance-server.js:102-104 | a filtered array keeps any key that was distinct in the original |
| `Js.Slice` | memory-storage.js:24 | `slice(start, end)` for non-negative bounds is the sub-array from `start` up to `end` clipped to the length. It is empty when `end <= start` or when `start` is at or beyond the length |
| `Js.PadStart` | server.js:258 | `padStart` reaches the width (never truncates), keeps the string as its suffix, and fills with the pad character |
| `Js.NatToString` | server.js:258 | `toString` of a non-negative integer is all decimal digits with no leading zero except for 0 itself |
| `Js.NatToStringRoundTrip` | server.js:257-258 | reading the decimal digits back yields the number |
| `Js.ZeroPadValue` | server.js:258 | left-padding digits with zeros keeps their value |
| `Js.NatToStringLength` | server.js:258 | a number below 10^k has at most k digits |
| `Js.NatToStringLonger` | server.js:258 | a number from 10000 on has at least five digits |
| `Js.Lower` | server_clean.js:31 | `toLowerCase` keeps the length and lowers each character |
| `Js.LowerIdempotent` | server_clean.js:31 | a lowered string has no upper-case ASCII letter, and lowering it again changes nothing |
| `Js.TrimSpec` | server.js:247 | `trim` returns the middle piece of the string, what it strips is whitespace, the result neither starts nor ends with whitespace |
| `Js.TrimIdempotent` | server.js:247 | trimming a trimmed string changes nothing |
| `Tables.FindStudent` | server.js:262-267 | `SELECT ... WHERE student_id = $1` finds a row exactly when the id is taken |
| `Tables.AppendFreshMark` | server.js:367-381 | appending a mark for a student with none that day keeps at most one mark per student per day |
| `Tables.GeneratedId` | server.js:254-259 | a generated id is `STU` followed by at least four decimal digits |
| `Tables.GeneratedIdRoundTrip` | server.js:256-258 | a generated id decodes to the stored-student count plus one |
| `Tables.GeneratedIdInjective` | server.js:256-258 | two counts give the same id exactly when they are equal |
| `Tables.GeneratedIdWidth` | server.js:258 | below 10000 students the id is seven characters long; from then on it grows with the number |
| `Tables.FirstGeneratedId` | server_clean.js:15-17 | the first student in an empty table gets `STU0001` |
| `Tables.FiveDigitGeneratedId` | server_clean.js:15-17 | the 10000th student gets `STU10000` |
| `Tables.GeneratedIdFresh` | server.js:254-269 | the generated id is free when no stored id encodes a number beyond the count |
| `Tables.GeneratedIdCanCollide` | server.js:254-269 | a hand-chosen id such as `STU0002` can take a later generated id |
| `Tables.QrImageUrl` | server.js:311 | the QR path is `/qrcodes/` + the student id + `.png`, and the id can be read back from it |
| `Tables.QrImageUrlInjective` | server.js:138-141 | distinct students have distinct QR paths |
| `MemoryStore.StudentWithId` | memory-storage.js:34 | the first student with that `student_id`, and none exactly when the id is absent |
| `MemoryStore.StudentWithEmail` | memory-storage.js:39 | some student has that email exactly when the lookup finds one |
| `MemoryStore.MarkFor` | memory-storage.js:77-79 | a record for that student and date exists exactly when the lookup finds one |
| `MemoryStore.SelectedSpec` | memory-storage.js:98-107 | the date and student filters select exactly the records passing every filter that is set, and the selection of a concatenation is the concatenation of the selections |
| `MemoryStore.Joined` | memory-storage.js:110-117 | each record gets its student's name and email, or 'Unknown' and 'unknown@example.com' when no student has that id |
| `MemoryStore.DayListingHasNoRepeats` | memory-storage.js:75-83 | given one mark per student per date, a listing for one date names each student at most once |
| `MemoryStore.MemoryStorage.constructor` | memory-storage.js:3-19 | the arrays are empty, the admin list holds the default `admin`/`admin123` account, and both counters start at 1 |
| `MemoryStore.MemoryStorage.GetStudents` | memory-storage.js:22-30 | the page is the slice `[offset, offset+limit)` in stored order, each student with its QR path, and the total is the number of students |
| `MemoryStore.MemoryStorage.AddStudent` | memory-storage.js:32-67 | a taken `student_id` is rejected with `students_student_id_key`; a taken non-empty email is then rejected with `students_email_key`; otherwise exactly one student with the next surrogate id is appended. Rejection changes nothing, and the invariant is kept |
| `MemoryStore.MemoryStorage.GetStudentById` | memory-storage.js:69-72 | at most one row: the first student with that id, and no row exactly when the id is absent |
| `MemoryStore.MemoryStorage.AddAttendance` | memory-storage.js:75-96 | a repeat for the same student and date yields no rows and changes nothing; otherwise one 'present' record with the next surrogate id is appended. Afterwards the student is marked for that date, and the invariant is kept |
| `MemoryStore.MemoryStorage.GetAttendance` | memory-storage.js:98-120 | the records passing every set filter, in stored order, each joined with its student |
| `MemoryStore.MemoryStorage.GetAdmin` | memory-storage.js:123-126 | at most one row: the first admin with that username, and no row exactly when there is none |
| `MemoryStore.MemoryStorage.GetStats` | memory-storage.js:129-140 | both counts, storage type 'memory', and id, name and class of the first three students |
| `MemoryStore.SingleMarkListing` | memory-storage.js:98-120 | a store holding one student and one mark lists that mark, by the student's name, for its date |
| `MemoryStore.RepeatMarkScenario` | memory-storage.js:75-120 | registering, marking twice on one date and listing that date gives one row, then none, and a single listed record with the student's name |
| `Server.AddStudentStatus` | server.js:241-268 | a registration answers 200 exactly when it succeeds |
| `Server.FirstDayScenario` | server.js:214-406 | on fresh tables with the seeded admins, a registration without an id stores `STU0001`. A first scan of it on a day inserts the one `present` row with `success: true`, and a second scan that day is a 200 with `success: false` that inserts nothing |
| `Server.NewStudentRowSpec` | server.js:246-275 | the stored row has the caller's id or a generated `STU` id, the given name or the first and last name joined and trimmed, the given phone or the parent's mobile, and every other field as sent, the address, city and state included |
| `Server.AddStudent` | server.js:214-344 | a missing required field gives 400 and a taken id gives "already exists", both with nothing stored; otherwise exactly one row is appended and the reply carries it with its QR path |
| `Server.ResolveStudentId` | server.js:348 | the id is the first truthy one of `studentId`, `id` and `qr`, and none exactly when all three are falsy |
| `Server.MarkAttendance` | server.js:347-406 | no id gives 400 and an unknown student gives 404. A student with a row on the current day is told "already marked". Otherwise exactly one 'present' row stamped now is appended. Students and admins never change, and at most one mark per student per day is kept |
| `Server.MarkStatus` | server.js:349-401 | 400 exactly without an id, 404 exactly for an unknown student, 200 exactly for the two answers about a known one |
| `Server.MarkSuccess` | server.js:350-401 | `success` is set only on a 200, and a 200 is a success exactly when it is not the "already marked" answer |
| `Server.MarkMessage` | server.js:350-401 | the "already marked" and "marked successfully" messages name the student right after their fixed opening; the two refusals begin with "Student " |
| `Server.RepeatScanScenario` | server.js:366-378 | a second scan on the same day is answered `success: false` with status 200. The table gains exactly one `present` row for the resolved student, and only when the first scan was stored |
| `Server.PageNumber` | server.js:124 | `parseInt` of the page, or 1: a missing, non-numeric or zero page becomes page 1, and any other number is kept |
| `Server.TotalPages` | server.js:135 | `Math.ceil(total / 20)`: the pages hold all students and none of them is empty |
| `Server.PageRows` | server.js:126-131 | a page holds at most 20 rows |
| `Server.ListStudents` | server.js:123-154 | a page below 1, or one whose offset `(page-1)*20` is beyond the largest `bigint`, fails with 500. Otherwise the reply is the page's rows in id order with their QR paths, the total, the page size and the page count |
| `Server.PageRowsAt` | server.js:126-131 | row `i` of page `p` is the student at position `(p-1)*20 + i` |
| `Server.FirstPagesArePrefix` | server.js:126-131 | pages 1 to k together are exactly the first `k*20` students |
| `Server.AllPagesListEveryStudent` | server.js:123-154 | pages 1 to `totalPages` list every student exactly once in id order, and later pages are empty |
| `Server.LoginStatus` | server.js:161-206 | 400 exactly for missing credentials, 401 exactly for invalid ones, and the 302 redirect exactly for a login |
| `Server.CredentialChangesOnlyOnLegacyMatch` | server.js:179-198 | the stored credential changes only after a plain-text credential matched; a failed attempt or a bcrypt credential leaves it unchanged |
| `Server.UpgradeKeepsPasswordWorking` | server.js:182-198 | after the upgrade the same password logs in through bcrypt, and no further rewrite happens |
| `Server.SetPasswordHash` | server.js:192-195 | the UPDATE replaces the hash of the admins with that id and leaves every other row unchanged |
| `Server.FindAdmin` | server.js:167-177 | the first admin with that username, and none exactly when no admin has it |
| `Server.Login` | server.js:157-211 | missing credentials give 400. An unknown user or a wrong password gives 401. Otherwise the admin is logged in, exactly when the password matches: by bcrypt for a `$2b$` credential, by equality otherwise. Only a matching plain-text credential is rewritten, to its hash, and the found admin's credential afterwards is `CredentialAfter` of the old one |
| `Server.FindAdminAfterSetPasswordHash` | server.js:192-195 | rewriting a hash keeps every username, so a later lookup finds the same admin |
| `Server.LegacyLoginTwice` | server.js:157-211 | two logins with an admin's plain-text password both succeed. The first stores the bcrypt hash, and the second goes through bcrypt and writes nothing, given that `compare` accepts what `hash` produced |
| `ServerClean.Register` | server_clean.js:2-62 | a missing required field gives 400 and a generated id that is already taken gives 500, both with nothing stored. Otherwise exactly one row is appended under the generated id |
| `ServerClean.CleanStatus` | server_clean.js:10-60 | 200 exactly for a registration, 400 exactly for a missing field, 500 exactly for a failed INSERT |
| `ServerClean.CleanSuccess` | server_clean.js:11-60 | `success` is true exactly when the status is 200 |
| `ServerClean.CleanError` | server_clean.js:11-60 | no `error` exactly on success; a 400 carries 'Missing required fields' and a 500 carries the thrown error's message |
| `ServerClean.CleanRowSpec` | server_clean.js:14-43 | the row has the generated `STU` id and the untrimmed name `first + " " + last`. Both phone columns are the parent's mobile. Email defaults to `first.last@student.edu` in lower case, dob to '2000-01-01', gender to 'N/A' and the address fields to ''. A truthy optional field is stored as sent |
| `ServerClean.DefaultEmailSpec` | server_clean.js:31 | the synthesised email is the lowered first name, a dot, the lowered last name and `@student.edu` |
| `ServerClean.RegisteredReplyEchoesRow` | server_clean.js:47-56 | the reply echoes the stored row's id, untrimmed name, class and division |
| `ServerClean.IgnoresCallerIdNameAndPhone` | server_clean.js:7-18 | any `studentId`, `name` or `phone` in the body has no effect on the reply or the table |
| `ServerClean.RegisterKeepsIdsUnique` | server_clean.js:23-43 | a registration adds at most one row and keeps student ids unique |
| `ServerClean.FirstRegistration` | server_clean.js:14-56 | on an empty table a complete registration succeeds as `STU0001` |
| `ServerClean.CollisionBlocksRegistration` | server_clean.js:15-43 | once a stored id takes the next generated id, every complete registration is refused with 500 and nothing is stored, so the next one is refused too |
| `AttendanceServer.MarkStatus` | attendance-server.js:41-79 | 400 exactly without a `studentId`; every other answer, the repeat included, is a 200 |
| `AttendanceServer.MarkSuccess` | attendance-server.js:42-79 | `success` is set only on a 200, and a 200 is a success exactly when a record was appended |
| `AttendanceServer.MarkMessage` | attendance-server.js:42-79 | the "already marked" and "marked successfully" messages name the student id right after their fixed opening; the refusal is 'Student ID is required' |
| `AttendanceServer.ScanOn` | attendance-server.js:49-53 | finds a record of that student whose timestamp is on that day, and none exactly when there is none |
| `AttendanceServer.AppendFreshScan` | attendance-server.js:55-70 | appending a scan for a student with none that day keeps at most one scan per student per day |
| `AttendanceServer.RecordsOnAfterAppend` | attendance-server.js:100-104 | after an append, today's listing is the earlier listing, followed by the new record when it is from today |
| `AttendanceServer.RecordsOnNamesEachStudentOnce` | attendance-server.js:100-111 | with one scan per student per day, today's listing names each student at most once |
| `AttendanceServer.AttendanceLog.constructor` | attendance-server.js:13-25 | the array starts as what was loaded |
| `AttendanceServer.AttendanceLog.Mark` | attendance-server.js:37-88 | a missing id gives 400. A scan by the same student on the same day gives `success: false` with the earlier scan's time. Otherwise exactly one `QR_SCAN` record stamped now is appended. At most one scan per student per day is kept |
| `AttendanceServer.AttendanceLog.All` | attendance-server.js:91-97 | every record, and `totalRecords` is their number |
| `AttendanceServer.AttendanceLog.Today` | attendance-server.js:100-112 | exactly the records from today, in stored order, and `totalPresent` is their number |
| `AttendanceServer.RepeatScanScenario` | attendance-server.js:37-111 | two scans on one day by a new student: the first is stored with `success: true`, the second is a 200 with `success: false` and the first one's time, and today's count rises by one |

## Left out

- Express routing, static files, HTML and JSON serialisation, and logging are left out. Replies are datatypes. Their status codes and `success` flags are functions. The JSON `message`/`error` texts are functions for `POST /mark-attendance` in server.js and attendance-server.js and for server_clean.js. The HTML bodies of server.js's `/add-student` and `/dashboard` replies are not modelled.
- The time in attendance-server.js's "already marked" message comes from `toLocaleTimeString()`, which depends on the host's locale. It is the parameter `localeTime` of `AttendanceServer.MarkMessage`.
- The text of the error that the INSERT in server_clean.js throws is composed by the database driver. It is the parameter `dbMessage` of `ServerClean.CleanError`.
- Twilio SMS after a mark is left out. It never changes the stored state or the reply.
- The QR image generation (an HTTP call and a file write after registration) is left out. Only the QR path is modelled.
- bcrypt is not modelled: `hash` and `compare` are parameters, and the cost factor `BCRYPT_ROUNDS` is not represented.
- The pg connection pool, SQL text, the schema scripts, `ON CONFLICT` upserts and temp-data are left out. Tables are sequences of rows, and queries are the functions that select from them.
- Database failures are left out, with two exceptions. The UNIQUE `student_id` violation in server_clean.js gives 500. In `GET /api/students`, an OFFSET that is negative or beyond `bigint` gives 500 (`ListFailed`). The other 500 replies of server.js (connection lost, other query errors) are not modelled.
- Wall-clock time, time zones and date formatting are abstract. `toDateString()`, `toISOString().split('T')[0]` and `DATE(timestamp)` all become `Instant.day`, and the two `new Date()` calls of one request are one instant.
- The `created_at` timestamps set by memory-storage.js and by the database defaults are left out.
- The check-then-insert race between concurrent requests is left out. Handlers run one at a time.
- `getAllData` of memory-storage.js is a debugging dump and is not modelled.
- `GET /api/attendance` (server.js:409-423) is not part of this model. It returns the 100 newest attendance rows joined with student names.
- Loading and saving `attendance-data.json` in attendance-server.js are not modelled. The constructor takes the loaded array, and the save has no effect on the reply.
- Server.PageNumber: takes `parseInt`'s result (or `None` for NaN) rather than scanning the query string. Page numbers beyond 2^53, where JavaScript's floating-point arithmetic loses precision, are treated as exact integers.
- MemoryStore.MemoryStorage.GetStudents: takes both arguments explicitly. The JavaScript defaults `limit = 20` and `offset = 0` for an omitted argument are not modelled; a call with no arguments is `GetStudents(20, 0)`.
- MemoryStore.MemoryStorage.GetAttendance: takes its filters explicitly. The default `filters = {}` (memory-storage.js:98) for an omitted argument is not modelled; a call with no argument is the call with no filter set.
- MemoryStore.MemoryStorage.AddStudent: `addStudent`, `getStudentById` and `getAdmin` (memory-storage.js:66, 71, 125) return the live stored objects, not copies, so a caller that mutates a returned row changes the store. The model returns rows as values, so that aliasing is not captured.
- Js.Lower: covers ASCII letters only, not the full Unicode case mapping of `toLowerCase`.
- JSON `null` and `undefined` are both `None`. Request fields are strings or absent, so non-string JSON values are not modelled.
- Server.FindAdmin: takes the first matching row in stored order, where the SQL has no `ORDER BY`.
- MemoryStore.DayListingHasNoRepeats: assumes the date filter is non-empty, because an empty `date` filter is falsy and lists every date.

=== FILE: attendance_server.dfy ===
/**
 * The file-backed attendance server of attendance-server.js: a
 * module-level array of scan records, appended to by `/mark-attendance`
 * after a check for a scan by the same student on the same day, and read
 * by `/attendance` and `/attendance/today`.
 */
module AttendanceServer {
  import opened Js

  /** `{studentId, timestamp, date, method}` as the handler appends it; `method` is a Dafny keyword, hence `scanMethod`. */
  datatype ScanRecord = ScanRecord(studentId: string, timestamp: Instant, date: int, scanMethod: string)

  /**
   * This server's reply, kept apart from `Server.MarkReply`: it has no
   * "not found" case, names the student by id, and refuses a repeat with
   * the earlier scan's time.
   */
  datatype MarkReply =
    | StudentIdRequired                           // 400
    | AlreadyMarked(studentId: string, at: Instant)  // 200, success: false, with the earlier scan's time
    | Marked(record: ScanRecord)                  // 200, success: true

  /** The HTTP status: 400 only without a `studentId`; a repeat scan is a 200 too. */
  function MarkStatus(reply: MarkReply): (status: nat)
    ensures status == 400 <==> reply.StudentIdRequired?
    ensures status == 200 <==> !reply.StudentIdRequired?
  {
    if reply.StudentIdRequired? then 400 else 200
  }

  /** The `success` flag: a 200 is a success exactly when a record was appended. */
  function MarkSuccess(reply: MarkReply): (success: bool)
    ensures success ==> MarkStatus(reply) == 200
    ensures MarkStatus(reply) == 200 ==> (success <==> !reply.AlreadyMarked?)
  {
    reply.Marked?
  }

  /**
   * The `message` text. `localeTime` stands for `toLocaleTimeString()`,
   * whose output depends on the host's locale; both answers about a
   * scan name the student id.
   */
  function MarkMessage(reply: MarkReply, localeTime: Instant -> string): (message: string)
    ensures reply.AlreadyMarked? ==> NamesAfter(message, "Attendance already marked for ", reply.studentId)
    ensures reply.Marked? ==> NamesAfter(message, "Attendance marked successfully for ", reply.record.studentId)
    ensures reply.StudentIdRequired? ==> message == "Student ID is required"
  {
    match reply
    case StudentIdRequired => "Student ID is required"
    case AlreadyMarked(id, at) =>
      NamesAfterConcat("Attendance already marked for ", id, " today at " + localeTime(at));
      "Attendance already marked for " + id + (" today at " + localeTime(at))
    case Marked(record) =>
      NamesAfterConcat("Attendance marked successfully for ", record.studentId, "");
      "Attendance marked successfully for " + record.studentId
  }

  /** `{records, totalRecords}` from `/attendance`. */
  datatype AllReply = AllReply(records: seq<ScanRecord>, totalRecords: nat)

  /** `{date, records, totalPresent}` from `/attendance/today`. */
  datatype TodayReply = TodayReply(date: int, records: seq<ScanRecord>, totalPresent: nat)

  /** The record's timestamp falls on `day`. */
  function OnDay(day: int): ScanRecord -> bool {
    (r: ScanRecord) => r.timestamp.day == day
  }

  /** `studentId` has a record whose timestamp falls on `day`. */
  predicate ScannedOn(records: seq<ScanRecord>, studentId: string, day: int) {
    exists i :: 0 <= i < |records| && records[i].studentId == studentId && records[i].timestamp.day == day
  }

  /**
   * No student has two records whose timestamps fall on the same day: the
   * invariant `Tables.OneMarkPerDay` states for the database, here over
   * this server's own record shape.
   */
  predicate OneScanPerDay(records: seq<ScanRecord>) {
    forall i, j :: 0 <= i < j < |records| ==>
      !(records[i].studentId == records[j].studentId && records[i].timestamp.day == records[j].timestamp.day)
  }

  /** `attendanceRecords.find(...)` for the student on `day`, as an index. */
  function ScanOn(records: seq<ScanRecord>, studentId: string, day: int): (k: Option<nat>)
    ensures k.None? <==> !ScannedOn(records, studentId, day)
    ensures k.Some? ==>
      k.value < |records| && records[k.value].studentId == studentId && records[k.value].timestamp.day == day
  {
    FindFirst(records, (r: ScanRecord) => r.studentId == studentId && r.timestamp.day == day)
  }

  /** The records `/attendance/today` selects. */
  function RecordsOn(records: seq<ScanRecord>, day: int): seq<ScanRecord> {
    Filter(records, OnDay(day))
  }

  /** Appending a scan with none by that student that day keeps one scan per student per day (`Tables.AppendFreshMark` for this record shape). */
  lemma {:induction false} AppendFreshScan(records: seq<ScanRecord>, rec: ScanRecord)
    requires OneScanPerDay(records)
    requires !ScannedOn(records, rec.studentId, rec.timestamp.day)
    ensures OneScanPerDay(records + [rec])
  {
    var r := records + [rec];
    forall i, j | 0 <= i < j < |r|
      ensures !(r[i].studentId == r[j].studentId && r[i].timestamp.day == r[j].timestamp.day)
    {
      assert r[i] == records[i];
      if j < |records| {
        assert r[j] == records[j];
      } else {
        assert r[j] == rec;
      }
    }
  }

  /**
   * The day's listing after an append: the earlier listing, followed by the
   * new record exactly when its timestamp falls on that day.
   */
  lemma RecordsOnAfterAppend(records: seq<ScanRecord>, rec: ScanRecord, day: int)
    ensures RecordsOn(records + [rec], day) == RecordsOn(records, day) + (if rec.timestamp.day == day then [rec] else [])
  {
    FilterAppend(records, [rec], OnDay(day));
    FilterSingleton(rec, OnDay(day));
  }

  /** With one scan per student per day, the day's listing names each student at most once. */
  lemma RecordsOnNamesEachStudentOnce(records: seq<ScanRecord>, day: int)
    requires OneScanPerDay(records)
    ensures DistinctBy(RecordsOn(records, day), (r: ScanRecord) => r.studentId)
  {
    var key := (r: ScanRecord) => (r.studentId, r.timestamp.day);
    assert DistinctBy(records, key);
    FilterKeepsDistinct(records, OnDay(day), key);
    var t := RecordsOn(records, day);
    forall i, j | 0 <= i < j < |t| ensures t[i].studentId != t[j].studentId {
      assert t[i] in t && t[j] in t;
      assert key(t[i]) != key(t[j]);
    }
  }

  /** The server's `attendanceRecords` array. */
  class AttendanceLog {
    var records: seq<ScanRecord>

    /** The array as loaded at start-up (empty when there is no data file). */
    constructor (loaded: seq<ScanRecord>)
      ensures records == loaded
    {
      records := loaded;
    }

    /**
     * `POST /mark-attendance` at clock reading `now`: 400 without a
     * `studentId`; "already marked" with the earlier scan's time when the
     * student has a record on `now`'s day; otherwise exactly one
     * `QR_SCAN` record is appended.
     */
    method Mark(studentId: Option<string>, now: Instant) returns (reply: MarkReply)
      modifies this
      ensures !Truthy(studentId) ==> reply == StudentIdRequired && records == old(records)
      ensures Truthy(studentId) && ScannedOn(old(records), studentId.value, now.day) ==>
        && reply == AlreadyMarked(studentId.value, old(records)[ScanOn(old(records), studentId.value, now.day).value].timestamp)
        && records == old(records)
      ensures Truthy(studentId) && !ScannedOn(old(records), studentId.value, now.day) ==>
        && reply == Marked(ScanRecord(studentId.value, now, now.day, "QR_SCAN"))
        && records == old(records) + [reply.record]
      ensures old(OneScanPerDay(records)) ==> OneScanPerDay(records)
    {
      if !Truthy(studentId) {
        return StudentIdRequired;
      }
      var today := now.day;
      var existingRecord := ScanOn(records, studentId.value, today);
      if existingRecord.Some? {
        return AlreadyMarked(studentId.value, records[existingRecord.value].timestamp);
      }
      var attendanceRecord := ScanRecord(studentId.value, now, today, "QR_SCAN");
      if OneScanPerDay(records) {
        AppendFreshScan(records, attendanceRecord);
      }
      records := records + [attendanceRecord];
      reply := Marked(attendanceRecord);
    }

    /** `GET /attendance`: every record, and how many there are. */
    function All(): (reply: AllReply)
      reads this
      ensures reply.records == records && reply.totalRecords == |records|
    {
      AllReply(records, |records|)
    }

    /**
     * `GET /attendance/today`: in stored order, exactly the records whose
     * timestamp falls on `today`, and their number.
     */
    function Today(today: int): (reply: TodayReply)
      reads this
      ensures reply.date == today
      ensures reply.records == RecordsOn(records, today)
      ensures forall r :: r in reply.records <==> r in records && r.timestamp.day == today
      ensures reply.totalPresent == |reply.records|
    {
      var todayRecords := RecordsOn(records, today);
      TodayReply(today, todayRecords, |todayRecords|)
    }
  }

  /** Two scans by one student on one day leave one record and one entry in that day's listing. */
  method RepeatScanScenario(log: AttendanceLog, id: string, morning: Instant, evening: Instant)
      returns (first: MarkReply, second: MarkReply)
    requires id != "" && morning.day == evening.day
    requires !ScannedOn(log.records, id, morning.day)
    modifies log
    ensures first.Marked? && second.AlreadyMarked? && second.at == morning
    ensures MarkSuccess(first) && !MarkSuccess(second) && MarkStatus(second) == 200
    ensures log.records == old(log.records) + [first.record]
    ensures log.Today(morning.day).totalPresent == old(log.Today(morning.day).totalPresent) + 1
  {
    first := log.Mark(Some(id), morning);
    assert log.records[|log.records| - 1] == first.record;
    assert ScanOn(log.records, id, morning.day).Some?;
    var k := ScanOn(log.records, id, morning.day).value;
    assert k == |log.records| - 1;
    second := log.Mark(Some(id), evening);
    RecordsOnAfterAppend(old(log.records), first.record, morning.day);
  }
}

=== FILE: js.dfy ===
/**
 * The small part of JavaScript's value semantics that the attendance
 * portal's handlers depend on: optional request fields and truthiness,
 * `||` defaulting, template interpolation, the `find`/`filter`/`slice`
 * array methods, `padStart`, `Number.prototype.toString`, `toLowerCase`,
 * `trim`, and an abstract clock reading.
 */
module Js {

  /** A value that may be `undefined` (or `null`): request-body fields and nullable columns. */
  datatype Option<+T> = None | Some(value: T)

  /** `if (x)` on a string field: `undefined`, `null` and `""` are falsy. */
  predicate Truthy(o: Option<string>) {
    o.Some? && o.value != ""
  }

  /** `a || b` on two optional strings. */
  function Or(a: Option<string>, b: Option<string>): Option<string> {
    if Truthy(a) then a else b
  }

  /** `a || 'literal'`. */
  function OrDefault(a: Option<string>, default: string): string {
    if Truthy(a) then a.value else default
  }

  /** `${x}` inside a template literal: `undefined` is rendered as the text "undefined". */
  function Interpolate(o: Option<string>): string {
    if o.Some? then o.value else "undefined"
  }

  /** `new Date()` reduced to what the handlers compare: a calendar day and the milliseconds into it. */
  datatype Instant = Instant(day: int, millis: nat)

  // ---------------------------------------------------------------------------
  // Array.prototype.find / filter / slice

  /**
   * `s.find(p)`, reporting the index of the element found: the first
   * element satisfying `p`, or `None` when there is none.
   */
  function FindFirst<T>(s: seq<T>, p: T -> bool): (r: Option<nat>)
    ensures r.Some? ==> r.value < |s| && p(s[r.value])
    ensures r.Some? ==> forall j :: 0 <= j < r.value ==> !p(s[j])
    ensures r.None? <==> forall i :: 0 <= i < |s| ==> !p(s[i])
  {
    if |s| == 0 then None
    else if p(s[0]) then Some(0)
    else match FindFirst(s[1..], p)
      case None => None
      case Some(k) => Some(k + 1)
  }

  /** `s.filter(p)`: the elements satisfying `p`, in their original order. */
  function Filter<T>(s: seq<T>, p: T -> bool): (r: seq<T>)
    ensures |r| <= |s|
    ensures forall x :: x in r ==> x in s && p(x)
    ensures forall i :: 0 <= i < |s| && p(s[i]) ==> s[i] in r
  {
    if |s| == 0 then []
    else (if p(s[0]) then [s[0]] else []) + Filter(s[1..], p)
  }

  /** Filtering distributes over concatenation, which pins down the order of the result. */
  lemma {:induction false} FilterAppend<T>(a: seq<T>, b: seq<T>, p: T -> bool)
    ensures Filter(a + b, p) == Filter(a, p) + Filter(b, p)
  {
    if a == [] {
      assert a + b == b;
    } else {
      assert (a + b)[0] == a[0];
      assert (a + b)[1..] == a[1..] + b;
      FilterAppend(a[1..], b, p);
    }
  }

  /** Filtering one element keeps it exactly when it satisfies the predicate. */
  lemma FilterSingleton<T>(x: T, p: T -> bool)
    ensures Filter([x], p) == if p(x) then [x] else []
  {
    assert [x][1..] == [];
  }

  /** No two elements of `s` share a key. */
  ghost predicate DistinctBy<T, K>(s: seq<T>, key: T -> K) {
    forall i, j :: 0 <= i < j < |s| ==> key(s[i]) != key(s[j])
  }

  /** A filter keeps keys distinct: what is selected is a subsequence of the input. */
  lemma {:induction false} FilterKeepsDistinct<T, K>(s: seq<T>, p: T -> bool, key: T -> K)
    requires DistinctBy(s, key)
    ensures DistinctBy(Filter(s, p), key)
  {
    if |s| > 0 {
      var tail := Filter(s[1..], p);
      assert DistinctBy(s[1..], key) by {
        forall i, j | 0 <= i < j < |s[1..]| ensures key(s[1..][i]) != key(s[1..][j]) {
          assert s[1..][i] == s[i + 1] && s[1..][j] == s[j + 1];
        }
      }
      FilterKeepsDistinct(s[1..], p, key);
      if p(s[0]) {
        var r := [s[0]] + tail;
        forall i, j | 0 <= i < j < |r| ensures key(r[i]) != key(r[j]) {
          if i == 0 {
            assert r[j] == tail[j - 1] && r[j] in tail;
            var k :| 0 <= k < |s[1..]| && s[1..][k] == r[j];
            assert s[k + 1] == r[j];
          } else {
            assert r[i] == tail[i - 1] && r[j] == tail[j - 1];
          }
        }
      } else {
        assert Filter(s, p) == tail;
      }
    }
  }

  /** How `slice` normalises an index: negative values count back from the end, then clamp to [0, len]. */
  function SliceIndex(i: int, len: nat): (r: nat)
    ensures r <= len
    ensures 0 <= i <= len ==> r == i
  {
    if i < 0 then (if len + i < 0 then 0 else len + i)
    else if i > len then len
    else i
  }

  /** `s.slice(start, end)`. */
  function Slice<T>(s: seq<T>, start: int, end: int): (r: seq<T>)
    ensures |r| <= |s|
    ensures 0 <= start <= |s| && start <= end ==>
      r == s[start..if end <= |s| then end else |s|]
    ensures 0 <= end <= start ==> r == []
    ensures |s| <= start ==> r == []
  {
    var b, e := SliceIndex(start, |s|), SliceIndex(end, |s|);
    if b < e then s[b..e] else []
  }

  // ---------------------------------------------------------------------------
  // Strings

  /** `s.startsWith(prefix)`. */
  predicate StartsWith(s: string, prefix: string) {
    |prefix| <= |s| && s[..|prefix|] == prefix
  }

  /** `s` begins with `prefix`, immediately followed by `name`: how a reply message names its subject. */
  predicate NamesAfter(s: string, prefix: string, name: string) {
    StartsWith(s, prefix) && |prefix| + |name| <= |s| && s[|prefix|..|prefix| + |name|] == name
  }

  /** A message built as `prefix + name + rest` names `name` right after `prefix`. */
  lemma NamesAfterConcat(prefix: string, name: string, rest: string)
    ensures NamesAfter(prefix + name + rest, prefix, name)
  {
    var s := prefix + name + rest;
    assert s == prefix + (name + rest);
    assert s[..|prefix|] == prefix;
    assert s[|prefix|..] == name + rest;
  }

  /** `n` copies of `c`. */
  function Repeat(c: char, n: nat): (r: string)
    ensures |r| == n
    ensures forall i :: 0 <= i < n ==> r[i] == c
  {
    if n == 0 then [] else [c] + Repeat(c, n - 1)
  }

  /** `s.padStart(width, c)` with a one-character pad: never truncates. */
  function PadStart(s: string, width: nat, c: char): (r: string)
    ensures |r| == if |s| < width then width else |s|
    ensures r[|r| - |s|..] == s
    ensures forall i :: 0 <= i < |r| - |s| ==> r[i] == c
  {
    if |s| < width then Repeat(c, width - |s|) + s else s
  }

  predicate IsDigit(c: char) {
    '0' <= c <= '9'
  }

  predicate AllDigits(s: string) {
    forall i :: 0 <= i < |s| ==> IsDigit(s[i])
  }

  function DigitChar(d: nat): (c: char)
    requires d < 10
    ensures IsDigit(c)
  {
    ('0' as int + d) as char
  }

  function DigitValue(c: char): (d: nat)
    requires IsDigit(c)
    ensures d < 10
    ensures DigitChar(d) == c
  {
    c as int - '0' as int
  }

  /** `n.toString()` for a non-negative integer: its decimal digits, without leading zeros. */
  function NatToString(n: nat): (r: string)
    ensures 1 <= |r| && AllDigits(r)
    ensures r[0] == '0' <==> n == 0
    ensures n == 0 ==> r == "0"
  {
    if n < 10 then [DigitChar(n)] else NatToString(n / 10) + [DigitChar(n % 10)]
  }

  /** The number a string of decimal digits denotes (leading zeros allowed). */
  function DigitsValue(s: string): nat
    requires AllDigits(s)
  {
    if s == [] then 0 else 10 * DigitsValue(s[..|s| - 1]) + DigitValue(s[|s| - 1])
  }

  function Pow10(k: nat): (r: nat)
    ensures r >= 1
  {
    if k == 0 then 1 else 10 * Pow10(k - 1)
  }

  /** Reading back the decimal text of `n` gives `n`. */
  lemma {:induction false} NatToStringRoundTrip(n: nat)
    ensures DigitsValue(NatToString(n)) == n
  {
    if n >= 10 {
      var r := NatToString(n);
      assert r[..|r| - 1] == NatToString(n / 10);
      NatToStringRoundTrip(n / 10);
    }
  }

  /** A number below 10^k has at most k digits. */
  lemma {:induction false} NatToStringLength(n: nat, k: nat)
    requires 1 <= k && n < Pow10(k)
    ensures |NatToString(n)| <= k
  {
    if n >= 10 {
      assert k >= 2;
      NatToStringLength(n / 10, k - 1);
    }
  }

  /** A number from 10^4 on has at least five digits. */
  lemma {:induction false} NatToStringLonger(n: nat)
    requires n >= 10000
    ensures |NatToString(n)| >= 5
  {
    assert |NatToString(n / 10)| >= 4 by { AtLeastDigits(n / 10, 3); }
  }

  /** A number from 10^k on has at least k + 1 digits. */
  lemma {:induction false} AtLeastDigits(n: nat, k: nat)
    requires n >= Pow10(k)
    ensures |NatToString(n)| >= k + 1
  {
    if k > 0 {
      AtLeastDigits(n / 10, k - 1);
    }
  }

  lemma AllDigitsAppend(a: string, b: string)
    requires AllDigits(a) && AllDigits(b)
    ensures AllDigits(a + b)
  {
    forall i | 0 <= i < |a + b| ensures IsDigit((a + b)[i]) {
      if i < |a| { assert (a + b)[i] == a[i]; } else { assert (a + b)[i] == b[i - |a|]; }
    }
  }

  lemma ShiftDigit(x: nat, p: nat, y: nat, d: nat)
    ensures 10 * (x * p + y) + d == x * (10 * p) + (10 * y + d)
  {
  }

  /** The value of a concatenation of digit strings. */
  lemma {:induction false} DigitsValueAppend(a: string, b: string)
    requires AllDigits(a) && AllDigits(b)
    ensures AllDigits(a + b)
    ensures DigitsValue(a + b) == DigitsValue(a) * Pow10(|b|) + DigitsValue(b)
  {
    AllDigitsAppend(a, b);
    if b == [] {
      assert a + b == a;
    } else {
      var b' := b[..|b| - 1];
      assert (a + b)[..|a + b| - 1] == a + b';
      assert (a + b)[|a + b| - 1] == b[|b| - 1];
      DigitsValueAppend(a, b');
      ShiftDigit(DigitsValue(a), Pow10(|b'|), DigitsValue(b'), DigitValue(b[|b| - 1]));
    }
  }

  /** A run of zeros denotes zero. */
  lemma {:induction false} ZerosValue(k: nat)
    ensures AllDigits(Repeat('0', k)) && DigitsValue(Repeat('0', k)) == 0
  {
    if k > 0 {
      var z := Repeat('0', k);
      assert z[..k - 1] == Repeat('0', k - 1);
      ZerosValue(k - 1);
    }
  }

  /** Zero-padding with `padStart` does not change the number a digit string denotes. */
  lemma ZeroPadValue(s: string, width: nat)
    requires AllDigits(s)
    ensures AllDigits(PadStart(s, width, '0'))
    ensures DigitsValue(PadStart(s, width, '0')) == DigitsValue(s)
  {
    if |s| < width {
      ZerosValue(width - |s|);
      DigitsValueAppend(Repeat('0', width - |s|), s);
    }
  }

  /** ASCII part of `toLowerCase`. */
  function LowerChar(c: char): char {
    if 'A' <= c <= 'Z' then (c as int - 'A' as int + 'a' as int) as char else c
  }

  /** `s.toLowerCase()` on the ASCII letters. */
  function Lower(s: string): (r: string)
    ensures |r| == |s|
    ensures forall i :: 0 <= i < |s| ==> r[i] == LowerChar(s[i])
  {
    if s == [] then [] else [LowerChar(s[0])] + Lower(s[1..])
  }

  /** Lower-casing leaves no upper-case ASCII letter and is idempotent. */
  lemma LowerIdempotent(s: string)
    ensures forall i :: 0 <= i < |s| ==> !('A' <= Lower(s)[i] <= 'Z')
    ensures Lower(Lower(s)) == Lower(s)
  {
  }

  /** The characters `String.prototype.trim` strips: ECMAScript WhiteSpace and LineTerminator. */
  predicate IsJsSpace(c: char) {
    c == ' ' || c == '\t' || c == '\n' || c == '\r' || c == '\U{000B}' || c == '\U{000C}'
    || c == '\U{00A0}' || c == '\U{1680}' || ('\U{2000}' <= c <= '\U{200A}')
    || c == '\U{2028}' || c == '\U{2029}' || c == '\U{202F}' || c == '\U{205F}'
    || c == '\U{3000}' || c == '\U{FEFF}'
  }

  /** `s` with its leading white space removed. */
  function TrimStart(s: string): (r: string)
    ensures |r| <= |s| && r == s[|s| - |r|..]
    ensures r == [] || !IsJsSpace(r[0])
    ensures forall i :: 0 <= i < |s| - |r| ==> IsJsSpace(s[i])
  {
    if s != [] && IsJsSpace(s[0]) then TrimStart(s[1..]) else s
  }

  /** `s` with its trailing white space removed. */
  function TrimEnd(s: string): (r: string)
    ensures |r| <= |s| && r == s[..|r|]
    ensures r == [] || !IsJsSpace(r[|r| - 1])
    ensures forall i :: |r| <= i < |s| ==> IsJsSpace(s[i])
  {
    if s != [] && IsJsSpace(s[|s| - 1]) then TrimEnd(s[..|s| - 1]) else s
  }

  /** `s.trim()`. */
  function Trim(s: string): (r: string)
  {
    TrimEnd(TrimStart(s))
  }

  /** How many characters `trim` cuts from the front of `s`. */
  function TrimmedPrefix(s: string): (k: nat)
    ensures k <= |s|
  {
    |s| - |TrimStart(s)|
  }

  /**
   * What `trim` returns: the piece of `s` after `TrimmedPrefix(s)`, with no
   * white space at either end, everything cut off being white space.
   */
  lemma TrimSpec(s: string)
    ensures TrimmedPrefix(s) + |Trim(s)| <= |s|
    ensures Trim(s) == s[TrimmedPrefix(s)..TrimmedPrefix(s) + |Trim(s)|]
    ensures forall i :: 0 <= i < TrimmedPrefix(s) ==> IsJsSpace(s[i])
    ensures forall i :: TrimmedPrefix(s) + |Trim(s)| <= i < |s| ==> IsJsSpace(s[i])
    ensures Trim(s) == [] || (!IsJsSpace(Trim(s)[0]) && !IsJsSpace(Trim(s)[|Trim(s)| - 1]))
  {
    var a := TrimStart(s);
    var r := TrimEnd(a);
    var k := |s| - |a|;
    assert r == s[k..k + |r|];
    forall i | k + |r| <= i < |s| ensures IsJsSpace(s[i]) {
      assert s[i] == a[i - k];
    }
    if r != [] {
      assert r[0] == a[0];
    }
  }

  /** Trimming twice changes nothing more. */
  lemma TrimIdempotent(s: string)
    ensures Trim(Trim(s)) == Trim(s)
  {
    var r := Trim(s);
    if r != [] {
      assert r[0] == TrimStart(s)[0];
    }
    assert TrimStart(r) == r;
    assert TrimEnd(r) == r;
  }
}

=== FILE: memory_storage.dfy ===
/**
 * The in-memory fallback store of memory-storage.js: ordered arrays of
 * students, attendance records and admins, with two monotonically
 * increasing surrogate-id counters. Inserts enforce a unique `student_id`,
 * a unique non-empty `email`, and one attendance record per student per
 * date; queries page, filter and join without changing anything.
 */
module MemoryStore {
  import opened Js
  import Tables

  /** The fields a caller hands to `addStudent`; any of them may be undefined. */
  datatype StudentFields = StudentFields(
    student_id: Option<string>,
    name: Option<string>,
    first_name: Option<string>,
    last_name: Option<string>,
    phone: Option<string>,
    email: Option<string>,
    parent_mobile: Option<string>,
    studentClass: Option<string>,
    division: Option<string>,
    dob: Option<string>,
    gender: Option<string>,
    address1: Option<string>,
    address2: Option<string>,
    city: Option<string>,
    state: Option<string>)

  /** A stored student: the surrogate `id` followed by the fields as given. */
  datatype Student = Student(id: nat, fields: StudentFields)

  /** A stored attendance record. */
  datatype Attendance = Attendance(id: nat, student_id: string, date: string, time: string, status: string)

  /** A stored admin account. */
  datatype Admin = Admin(id: nat, username: string, password_hash: string, email: string)

  /** What `addStudent` resolves with, or the `{constraint}` object it throws. */
  datatype AddStudentResult = Inserted(rows: seq<Student>) | ConstraintViolation(constraint: string)

  /** A student as `getStudents` lists it: the record spread, plus its QR image path. */
  datatype StudentView = StudentView(student: Student, qr_img_url: string)

  /** `{rows, total}` from `getStudents`. */
  datatype StudentPage = StudentPage(rows: seq<StudentView>, total: nat)

  /** The optional `date` and `student_id` filters of `getAttendance`. */
  datatype AttendanceFilters = AttendanceFilters(date: Option<string>, student_id: Option<string>)

  /** An attendance record joined with its student's `name` and `email`. */
  datatype AttendanceView = AttendanceView(record: Attendance, name: Option<string>, email: Option<string>)

  /** `{id: student_id, name, class}` of one of the first students. */
  datatype SampleStudent = SampleStudent(id: Option<string>, name: Option<string>, studentClass: Option<string>)

  /** What `getStats` reports. */
  datatype Stats = Stats(students: nat, attendance_records: nat, storage_type: string, sample_students: seq<SampleStudent>)

  const StudentIdKey := "students_student_id_key"
  const EmailKey := "students_email_key"

  /** The account seeded by the constructor. */
  const DefaultAdmin := Admin(1, "admin", "admin123", "admin@attendance.portal")

  // ---------------------------------------------------------------------------
  // The store's invariants, on plain sequences

  /** Surrogate ids are 1, 2, 3, ... in insertion order. */
  predicate SequentialStudentIds(students: seq<Student>) {
    forall i :: 0 <= i < |students| ==> students[i].id == i + 1
  }

  predicate SequentialAttendanceIds(attendance: seq<Attendance>) {
    forall i :: 0 <= i < |attendance| ==> attendance[i].id == i + 1
  }

  /** No two students share a `student_id` (an absent one counts as a value too). */
  predicate UniqueStudentIds(students: seq<Student>) {
    forall i, j :: 0 <= i < j < |students| ==> students[i].fields.student_id != students[j].fields.student_id
  }

  /** Two students share an email only when it is empty or absent. */
  predicate UniqueEmails(students: seq<Student>) {
    forall i, j :: 0 <= i < j < |students| && students[i].fields.email == students[j].fields.email ==>
      !Truthy(students[j].fields.email)
  }

  /**
   * No two attendance records share `(student_id, date)`. This store keys
   * the check on the record's `date` string, where `Tables.OneMarkPerDay`
   * keys it on the day of the timestamp, so the two stay separate.
   */
  predicate OneMarkPerDay(attendance: seq<Attendance>) {
    forall i, j :: 0 <= i < j < |attendance| ==>
      !(attendance[i].student_id == attendance[j].student_id && attendance[i].date == attendance[j].date)
  }

  predicate HasStudentId(students: seq<Student>, id: Option<string>) {
    exists i :: 0 <= i < |students| && students[i].fields.student_id == id
  }

  predicate HasEmail(students: seq<Student>, email: Option<string>) {
    exists i :: 0 <= i < |students| && students[i].fields.email == email
  }

  predicate HasMark(attendance: seq<Attendance>, studentId: string, date: string) {
    exists i :: 0 <= i < |attendance| && attendance[i].student_id == studentId && attendance[i].date == date
  }

  // ---------------------------------------------------------------------------
  // The lookups the class performs with `find` and `filter`

  /** `students.find(s => s.student_id === id)`, as an index. */
  function StudentWithId(students: seq<Student>, id: Option<string>): (k: Option<nat>)
    ensures k.None? <==> !HasStudentId(students, id)
    ensures k.Some? ==> k.value < |students| && students[k.value].fields.student_id == id
    ensures k.Some? ==> forall j :: 0 <= j < k.value ==> students[j].fields.student_id != id
  {
    FindFirst(students, (s: Student) => s.fields.student_id == id)
  }

  /** `students.find(s => s.email === email)`, as an index. */
  function StudentWithEmail(students: seq<Student>, email: Option<string>): (k: Option<nat>)
    ensures k.None? <==> !HasEmail(students, email)
  {
    FindFirst(students, (s: Student) => s.fields.email == email)
  }

  /** `attendance.find(a => a.student_id === studentId && a.date === date)`, as an index. */
  function MarkFor(attendance: seq<Attendance>, studentId: string, date: string): (k: Option<nat>)
    ensures k.None? <==> !HasMark(attendance, studentId, date)
  {
    FindFirst(attendance, (a: Attendance) => a.student_id == studentId && a.date == date)
  }

  /** A record passes the filters that are set (truthy). */
  predicate Matches(a: Attendance, filters: AttendanceFilters) {
    (Truthy(filters.date) ==> a.date == filters.date.value)
    && (Truthy(filters.student_id) ==> a.student_id == filters.student_id.value)
  }

  /** `a => a.date === date`. */
  function DateIs(date: string): Attendance -> bool {
    (a: Attendance) => a.date == date
  }

  /** `a => a.student_id === studentId`. */
  function StudentIs(studentId: string): Attendance -> bool {
    (a: Attendance) => a.student_id == studentId
  }

  /** The two successive `filter` calls of `getAttendance`. */
  function Selected(attendance: seq<Attendance>, filters: AttendanceFilters): seq<Attendance>
  {
    var byDate := if Truthy(filters.date) then Filter(attendance, DateIs(filters.date.value)) else attendance;
    if Truthy(filters.student_id) then Filter(byDate, StudentIs(filters.student_id.value)) else byDate
  }

  /**
   * The two filters select exactly the records passing every set filter,
   * and the selection of a concatenation is the concatenation of the
   * selections: so the stored order is kept.
   */
  lemma {:induction false} SelectedSpec(a: seq<Attendance>, b: seq<Attendance>, filters: AttendanceFilters)
    ensures forall x :: x in Selected(a, filters) <==> x in a && Matches(x, filters)
    ensures Selected(a + b, filters) == Selected(a, filters) + Selected(b, filters)
  {
    var da, db := a, b;
    if Truthy(filters.date) {
      FilterAppend(a, b, DateIs(filters.date.value));
      da, db := Filter(a, DateIs(filters.date.value)), Filter(b, DateIs(filters.date.value));
    }
    if Truthy(filters.student_id) {
      FilterAppend(da, db, StudentIs(filters.student_id.value));
    }
    forall x | x in a && Matches(x, filters) ensures x in Selected(a, filters) {
      var i :| 0 <= i < |a| && a[i] == x;
      assert x in da;
      if Truthy(filters.student_id) {
        var j :| 0 <= j < |da| && da[j] == x;
      }
    }
  }

  /** A record, its student's name or 'Unknown', and email or 'unknown@example.com'. */
  function Joined(students: seq<Student>, a: Attendance): (v: AttendanceView)
    ensures v.record == a
    ensures HasStudentId(students, Some(a.student_id)) ==>
      exists i :: 0 <= i < |students| && students[i].fields.student_id == Some(a.student_id)
        && v.name == students[i].fields.name && v.email == students[i].fields.email
    ensures !HasStudentId(students, Some(a.student_id)) ==>
      v.name == Some("Unknown") && v.email == Some("unknown@example.com")
  {
    match StudentWithId(students, Some(a.student_id))
    case Some(k) => AttendanceView(a, students[k].fields.name, students[k].fields.email)
    case None => AttendanceView(a, Some("Unknown"), Some("unknown@example.com"))
  }

  /** Under one mark per `(student_id, date)`, a listing for one date names each student at most once. */
  lemma DayListingHasNoRepeats(attendance: seq<Attendance>, date: string)
    requires OneMarkPerDay(attendance)
    requires date != ""
    ensures DistinctBy(Selected(attendance, AttendanceFilters(Some(date), None)), (a: Attendance) => a.student_id)
  {
    var key := (a: Attendance) => (a.student_id, a.date);
    assert DistinctBy(attendance, key);
    var p := DateIs(date);
    FilterKeepsDistinct(attendance, p, key);
    var r := Filter(attendance, p);
    assert Selected(attendance, AttendanceFilters(Some(date), None)) == r;
    forall i, j | 0 <= i < j < |r| ensures r[i].student_id != r[j].student_id {
      assert r[i] in r && r[j] in r;
      assert key(r[i]) != key(r[j]);
    }
  }

  class MemoryStorage {
    var students: seq<Student>
    var attendance: seq<Attendance>
    var admins: seq<Admin>
    var nextStudentId: nat
    var nextAttendanceId: nat

    /** The counters point one past the last id, and the three uniqueness rules hold. */
    ghost predicate Valid()
      reads this
    {
      && nextStudentId == |students| + 1
      && nextAttendanceId == |attendance| + 1
      && SequentialStudentIds(students)
      && SequentialAttendanceIds(attendance)
      && UniqueStudentIds(students)
      && UniqueEmails(students)
      && OneMarkPerDay(attendance)
    }

    /** Empty students and attendance, the default admin, both counters at 1. */
    constructor ()
      ensures Valid()
      ensures students == [] && attendance == [] && admins == [DefaultAdmin]
      ensures nextStudentId == 1 && nextAttendanceId == 1
    {
      students := [];
      attendance := [];
      admins := [DefaultAdmin];
      nextStudentId := 1;
      nextAttendanceId := 1;
    }

    /**
     * `getStudents(limit, offset)`: the slice `students[offset .. offset+limit)`
     * in stored order, each with its QR image path, and the total count.
     */
    function GetStudents(limit: int, offset: int): (page: StudentPage)
      reads this
      ensures page.total == |students|
      ensures |page.rows| == |Slice(students, offset, offset + limit)|
      ensures forall i :: 0 <= i < |page.rows| ==>
        page.rows[i].student == Slice(students, offset, offset + limit)[i]
        && page.rows[i].qr_img_url == Tables.QrImageUrl(Interpolate(page.rows[i].student.fields.student_id))
      ensures 0 <= offset && 0 <= limit ==>
        |page.rows| == (if offset + limit <= |students| then limit
                        else if offset <= |students| then |students| - offset else 0)
      ensures 0 <= offset && 0 <= limit ==>
        forall i :: 0 <= i < |page.rows| ==> page.rows[i].student == students[offset + i]
    {
      var slice := Slice(students, offset, offset + limit);
      StudentPage(
        seq(|slice|, i requires 0 <= i < |slice| =>
          StudentView(slice[i], Tables.QrImageUrl(Interpolate(slice[i].fields.student_id)))),
        |students|)
    }

    /**
     * `addStudent(student)`: rejects a `student_id` already present, then a
     * non-empty `email` already present; otherwise appends one record with
     * the next surrogate id.
     */
    method AddStudent(student: StudentFields) returns (r: AddStudentResult)
      requires Valid()
      modifies this
      ensures Valid()
      ensures attendance == old(attendance) && admins == old(admins)
      ensures nextAttendanceId == old(nextAttendanceId)
      ensures r == ConstraintViolation(StudentIdKey) <==> HasStudentId(old(students), student.student_id)
      ensures r == ConstraintViolation(EmailKey) <==>
        !HasStudentId(old(students), student.student_id) && Truthy(student.email) && HasEmail(old(students), student.email)
      ensures r.Inserted? <==>
        !HasStudentId(old(students), student.student_id) && !(Truthy(student.email) && HasEmail(old(students), student.email))
      ensures r.ConstraintViolation? ==> students == old(students) && nextStudentId == old(nextStudentId)
      ensures r.Inserted? ==>
        && r.rows == [Student(old(nextStudentId), student)]
        && students == old(students) + r.rows
        && nextStudentId == old(nextStudentId) + 1
    {
      var existingById := StudentWithId(students, student.student_id);
      if existingById.Some? {
        return ConstraintViolation(StudentIdKey);
      }
      var existingByEmail := StudentWithEmail(students, student.email);
      if existingByEmail.Some? && Truthy(student.email) {
        return ConstraintViolation(EmailKey);
      }
      var newStudent := Student(nextStudentId, student);
      nextStudentId := nextStudentId + 1;
      students := students + [newStudent];
      r := Inserted([newStudent]);
    }

    /** `getStudentById(id)`: the first student with that `student_id`, or no row. */
    function GetStudentById(studentId: Option<string>): (rows: seq<Student>)
      reads this
      ensures |rows| <= 1
      ensures rows == [] <==> !HasStudentId(students, studentId)
      ensures rows != [] ==> exists k :: (0 <= k < |students| && rows[0] == students[k]
        && students[k].fields.student_id == studentId
        && forall j :: 0 <= j < k ==> students[j].fields.student_id != studentId)
    {
      match StudentWithId(students, studentId)
      case Some(k) => [students[k]]
      case None => []
    }

    /**
     * `addAttendance(studentId, date, time)`: a repeat for the same student
     * and date resolves with no rows and changes nothing; otherwise one
     * 'present' record with the next surrogate id is appended.
     */
    method AddAttendance(studentId: string, date: string, time: string) returns (rows: seq<Attendance>)
      requires Valid()
      modifies this
      ensures Valid()
      ensures students == old(students) && admins == old(admins) && nextStudentId == old(nextStudentId)
      ensures HasMark(old(attendance), studentId, date) ==>
        rows == [] && attendance == old(attendance) && nextAttendanceId == old(nextAttendanceId)
      ensures !HasMark(old(attendance), studentId, date) ==>
        && rows == [Attendance(old(nextAttendanceId), studentId, date, time, "present")]
        && attendance == old(attendance) + rows
        && nextAttendanceId == old(nextAttendanceId) + 1
      ensures HasMark(attendance, studentId, date)
    {
      var existing := MarkFor(attendance, studentId, date);
      if existing.Some? {
        return [];
      }
      var newAttendance := Attendance(nextAttendanceId, studentId, date, time, "present");
      nextAttendanceId := nextAttendanceId + 1;
      attendance := attendance + [newAttendance];
      rows := [newAttendance];
      assert attendance[|attendance| - 1] == newAttendance;
    }

    /**
     * `getAttendance(filters)`: the stored records passing every set filter,
     * in stored order, each joined with its student's name and email.
     */
    function GetAttendance(filters: AttendanceFilters): (rows: seq<AttendanceView>)
      reads this
      ensures |rows| == |Selected(attendance, filters)|
      ensures forall i :: 0 <= i < |rows| ==>
        rows[i] == Joined(students, Selected(attendance, filters)[i]) && Matches(rows[i].record, filters)
        && rows[i].record in attendance
    {
      SelectedSpec(attendance, [], filters);
      var selected, known := Selected(attendance, filters), students;
      seq(|selected|, i requires 0 <= i < |selected| => Joined(known, selected[i]))
    }

    /** `getAdmin(username)`: the first admin with that username, or no row. */
    function GetAdmin(username: string): (rows: seq<Admin>)
      reads this
      ensures |rows| <= 1
      ensures rows == [] <==> forall i :: 0 <= i < |admins| ==> admins[i].username != username
      ensures rows != [] ==> exists k :: (0 <= k < |admins| && rows[0] == admins[k]
        && admins[k].username == username
        && forall j :: 0 <= j < k ==> admins[j].username != username)
    {
      match FindFirst(admins, (a: Admin) => a.username == username)
      case Some(k) => [admins[k]]
      case None => []
    }

    /** `getStats()`: both counts, the storage type, and the first three students. */
    function GetStats(): (stats: Stats)
      reads this
      ensures stats.students == |students| && stats.attendance_records == |attendance|
      ensures stats.storage_type == "memory"
      ensures |stats.sample_students| == if |students| < 3 then |students| else 3
      ensures forall i :: 0 <= i < |stats.sample_students| ==>
        stats.sample_students[i] == SampleStudent(students[i].fields.student_id, students[i].fields.name, students[i].fields.studentClass)
    {
      var first := Slice(students, 0, 3);
      Stats(|students|, |attendance|, "memory",
        seq(|first|, i requires 0 <= i < |first| =>
          SampleStudent(first[i].fields.student_id, first[i].fields.name, first[i].fields.studentClass)))
    }
  }

  /** Listing the one date of a store holding one student and one mark shows that mark, by name. */
  lemma SingleMarkListing(s: Student, mark: Attendance)
    requires s.fields.student_id == Some(mark.student_id) && mark.date != ""
    ensures Selected([mark], AttendanceFilters(Some(mark.date), None)) == [mark]
    ensures Joined([s], mark).name == s.fields.name
  {
    FilterSingleton(mark, DateIs(mark.date));
    assert StudentWithId([s], Some(mark.student_id)) == Some(0);
  }

  /**
   * A student registered, marked twice on one date: the second mark is a
   * no-op, and the listing for that date shows the student once, by name.
   */
  method RepeatMarkScenario() returns (first: seq<Attendance>, second: seq<Attendance>, listed: seq<AttendanceView>)
    ensures |first| == 1 && second == []
    ensures |listed| == 1 && listed[0].record == first[0] && listed[0].name == Some("Ada Lovelace")
  {
    var store := new MemoryStorage();
    var ada := StudentFields(Some("STU0001"), Some("Ada Lovelace"), Some("Ada"), Some("Lovelace"),
      Some("9000000000"), None, Some("9000000000"), Some("MCA"), Some("A"), None, None, None, None, None, None);
    var added := store.AddStudent(ada);
    assert !HasStudentId([], ada.student_id);
    assert store.students == [Student(1, ada)];
    first := store.AddAttendance("STU0001", "2024-01-15", "09:00");
    assert !HasMark([], "STU0001", "2024-01-15");
    var mark := Attendance(1, "STU0001", "2024-01-15", "09:00", "present");
    assert first == [mark] && store.attendance == [mark];
    second := store.AddAttendance("STU0001", "2024-01-15", "10:00");
    assert store.attendance == [mark];
    listed := store.GetAttendance(AttendanceFilters(Some("2024-01-15"), None));
    SingleMarkListing(Student(1, ada), mark);
  }
}

=== FILE: server.dfy ===
/**
 * The request handlers of server.js, taken out of Express and run against
 * the tables of `Tables.Database`: student registration, attendance
 * marking, the paginated student list, and the admin login that upgrades
 * a legacy plain-text password to a bcrypt hash after a match.
 */
module Server {
  import opened Js
  import opened Tables

  // ---------------------------------------------------------------------------
  // POST /add-student

  /** The three outcomes of a registration. */
  datatype AddStudentReply =
    | MissingRequiredFields                                // 400, JSON error
    | StudentIdExists(studentId: string)                   // 400, HTML
    | Registered(student: StudentRow, qrImgUrl: string)    // 200, HTML success page

  function AddStudentStatus(reply: AddStudentReply): (status: nat)
    ensures status == 200 <==> reply.Registered?
  {
    match reply
    case MissingRequiredFields => 400
    case StudentIdExists(_) => 400
    case Registered(_, _) => 200
  }

  /** `name || \`${firstName} ${lastName}\`.trim()`. */
  function FullName(req: Registration): (name: string)
    requires HasRequiredFields(req)
  {
    if Truthy(req.name) then req.name.value else Trim(req.firstName.value + " " + req.lastName.value)
  }

  /** `phone || parent_mobile`. */
  function PhoneNumber(req: Registration): (phone: string)
    requires HasRequiredFields(req)
  {
    OrDefault(req.phone, req.parent_mobile.value)
  }

  /** The caller's `studentId` when given, else `STU` + the zero-padded count plus one. */
  function FinalStudentId(req: Registration, stored: nat): (id: string)
  {
    if Truthy(req.studentId) then req.studentId.value else GeneratedId(stored)
  }

  /** The row the INSERT writes. */
  function NewStudentRow(req: Registration, id: string): (row: StudentRow)
    requires HasRequiredFields(req)
  {
    StudentRow(id, FullName(req), req.firstName.value, req.lastName.value, PhoneNumber(req), req.email,
      req.parent_mobile.value, req.studentClass.value, req.division.value, req.dob, req.gender,
      req.address1, req.address2, req.city, req.state)
  }

  /**
   * What the registration stores: the required fields as given, the final
   * id, the name (the given one, or first and last name joined by a space
   * with the ends trimmed), the phone (the given one, or the parent's
   * mobile), and the optional fields unchanged. The id is never empty.
   */
  lemma NewStudentRowSpec(req: Registration, stored: nat)
    requires HasRequiredFields(req)
    ensures var row := NewStudentRow(req, FinalStudentId(req, stored));
      && row.student_id != ""
      && (Truthy(req.studentId) ==> row.student_id == req.studentId.value)
      && (!Truthy(req.studentId) ==> row.student_id == GeneratedId(stored) && StartsWith(row.student_id, "STU"))
      && (Truthy(req.name) ==> row.name == req.name.value)
      && (!Truthy(req.name) ==> row.name == Trim(req.firstName.value + " " + req.lastName.value))
      && (Truthy(req.phone) ==> row.phone == req.phone.value)
      && (!Truthy(req.phone) ==> row.phone == req.parent_mobile.value)
      && row.first_name == req.firstName.value && row.last_name == req.lastName.value
      && row.parent_mobile == req.parent_mobile.value && row.parent_mobile != ""
      && row.studentClass == req.studentClass.value && row.division == req.division.value
      && row.email == req.email && row.dob == req.dob && row.gender == req.gender
      && row.address1 == req.address1 && row.address2 == req.address2
      && row.city == req.city && row.state == req.state
  {
    var id := GeneratedId(stored);
    assert id[..3] == "STU";
  }

  /**
   * `POST /add-student`: rejects a body missing a required field, then an
   * id already stored; otherwise inserts exactly one row at the end.
   */
  method AddStudent(db: Database, req: Registration) returns (reply: AddStudentReply)
    modifies db
    ensures old(db.Valid()) ==> db.Valid()
    ensures db.attendance == old(db.attendance) && db.admins == old(db.admins)
    ensures !HasRequiredFields(req) ==> reply == MissingRequiredFields && db.students == old(db.students)
    ensures HasRequiredFields(req) && IdTaken(old(db.students), FinalStudentId(req, |old(db.students)|)) ==>
      reply == StudentIdExists(FinalStudentId(req, |old(db.students)|)) && db.students == old(db.students)
    ensures HasRequiredFields(req) && !IdTaken(old(db.students), FinalStudentId(req, |old(db.students)|)) ==>
      var row := NewStudentRow(req, FinalStudentId(req, |old(db.students)|));
      && reply == Registered(row, QrImageUrl(row.student_id))
      && db.students == old(db.students) + [row]
  {
    if !HasRequiredFields(req) {
      return MissingRequiredFields;
    }
    var finalStudentId := req.studentId;
    var id: string;
    if !Truthy(finalStudentId) {
      var count := |db.students| + 1;
      id := "STU" + PadStart(NatToString(count), 4, '0');
    } else {
      id := finalStudentId.value;
    }
    if FindStudent(db.students, id).Some? {
      return StudentIdExists(id);
    }
    var row := NewStudentRow(req, id);
    db.students := db.students + [row];
    reply := Registered(row, QrImageUrl(id));
  }

  // ---------------------------------------------------------------------------
  // POST /mark-attendance

  /** The body fields that may carry the scanned student id. */
  datatype MarkBody = MarkBody(studentId: Option<string>, id: Option<string>, qr: Option<string>)

  /** The four outcomes of a scan. */
  datatype MarkReply =
    | StudentIdRequired                          // 400
    | StudentNotFound                            // 404
    | AlreadyMarked(name: string)                // 200, success: false
    | Marked(name: string, studentId: string)    // 200, success: true

  /** The HTTP status: 400 without an id, 404 for an unknown student, 200 for both answers about a known one. */
  function MarkStatus(reply: MarkReply): (status: nat)
    ensures status == 400 <==> reply.StudentIdRequired?
    ensures status == 404 <==> reply.StudentNotFound?
    ensures status == 200 <==> reply.AlreadyMarked? || reply.Marked?
  {
    match reply
    case StudentIdRequired => 400
    case StudentNotFound => 404
    case _ => 200
  }

  /** The `success` flag: only an inserted row is a success; a repeat scan is a 200 without it. */
  function MarkSuccess(reply: MarkReply): (success: bool)
    ensures success ==> MarkStatus(reply) == 200
    ensures MarkStatus(reply) == 200 ==> (success <==> !reply.AlreadyMarked?)
  {
    reply.Marked?
  }

  /** The `message` text; the two answers about a known student name that student. */
  function MarkMessage(reply: MarkReply): (message: string)
    ensures reply.AlreadyMarked? ==> NamesAfter(message, "Attendance already marked for ", reply.name)
    ensures reply.Marked? ==> NamesAfter(message, "Attendance marked successfully for ", reply.name)
    ensures reply.StudentIdRequired? || reply.StudentNotFound? ==> StartsWith(message, "Student ")
  {
    match reply
    case StudentIdRequired => "Student ID is required in request body."
    case StudentNotFound => "Student not found."
    case AlreadyMarked(name) =>
      NamesAfterConcat("Attendance already marked for ", name, " today.");
      "Attendance already marked for " + name + " today."
    case Marked(name, id) =>
      NamesAfterConcat("Attendance marked successfully for ", name, " (ID: " + id + ")");
      "Attendance marked successfully for " + name + (" (ID: " + id + ")")
  }

  /** `studentId || id || qr || null`. */
  function ResolveStudentId(body: MarkBody): (id: Option<string>)
    ensures id.None? <==> !Truthy(body.studentId) && !Truthy(body.id) && !Truthy(body.qr)
    ensures id.Some? ==> id.value != ""
    ensures Truthy(body.studentId) ==> id == body.studentId
    ensures !Truthy(body.studentId) && Truthy(body.id) ==> id == body.id
    ensures !Truthy(body.studentId) && !Truthy(body.id) && Truthy(body.qr) ==> id == body.qr
  {
    var first := Or(Or(body.studentId, body.id), body.qr);
    if Truthy(first) then first else None
  }

  /**
   * `POST /mark-attendance` at clock reading `now`: 400 without an id, 404
   * for an unknown student, "already marked" when the student has a row
   * on `now`'s day; otherwise exactly one row is inserted.
   */
  method MarkAttendance(db: Database, body: MarkBody, now: Instant) returns (reply: MarkReply)
    modifies db
    ensures old(db.Valid()) ==> db.Valid()
    ensures db.students == old(db.students) && db.admins == old(db.admins)
    ensures ResolveStudentId(body).None? ==> reply == StudentIdRequired && db.attendance == old(db.attendance)
    ensures ResolveStudentId(body).Some? && !IdTaken(db.students, ResolveStudentId(body).value) ==>
      reply == StudentNotFound && db.attendance == old(db.attendance)
    ensures ResolveStudentId(body).Some? && IdTaken(db.students, ResolveStudentId(body).value) ==>
      var id := ResolveStudentId(body).value;
      var student := db.students[FindStudent(db.students, id).value];
      if MarkedOn(old(db.attendance), id, now.day) then
        reply == AlreadyMarked(student.name) && db.attendance == old(db.attendance)
      else
        reply == Marked(student.name, id) && db.attendance == old(db.attendance) + [AttendanceRow(id, now, "present")]
    ensures reply.Marked? || reply.AlreadyMarked? ==> MarkedOn(db.attendance, ResolveStudentId(body).value, now.day)
  {
    var studentId := ResolveStudentId(body);
    if studentId.None? {
      return StudentIdRequired;
    }
    var id := studentId.value;
    var studentCheck := FindStudent(db.students, id);
    if studentCheck.None? {
      return StudentNotFound;
    }
    var student := db.students[studentCheck.value];
    if MarkedOn(db.attendance, id, now.day) {
      return AlreadyMarked(student.name);
    }
    var row := AttendanceRow(id, now, "present");
    if OneMarkPerDay(db.attendance) {
      AppendFreshMark(db.attendance, row);
    }
    db.attendance := db.attendance + [row];
    assert db.attendance[|db.attendance| - 1] == row;
    reply := Marked(student.name, id);
  }

  /** A second scan on the same day is answered "already marked" and inserts nothing. */
  method RepeatScanScenario(db: Database, body: MarkBody, morning: Instant, evening: Instant)
      returns (first: MarkReply, second: MarkReply)
    requires ResolveStudentId(body).Some? && IdTaken(db.students, ResolveStudentId(body).value)
    requires morning.day == evening.day
    modifies db
    ensures first.Marked? || first.AlreadyMarked?
    ensures second.AlreadyMarked? && !MarkSuccess(second) && MarkStatus(second) == 200
    ensures db.attendance
      == old(db.attendance) + (if first.Marked? then [AttendanceRow(ResolveStudentId(body).value, morning, "present")] else [])
  {
    first := MarkAttendance(db, body, morning);
    second := MarkAttendance(db, body, evening);
  }

  /**
   * A fresh deployment: empty tables with the seeded admins, one
   * registration without a caller id, then two scans of its QR code on
   * one day. The student is stored as `STU0001`, the first scan inserts
   * the one attendance row, and the second is answered "already marked".
   */
  method FirstDayScenario(seeded: seq<AdminRow>, req: Registration, morning: Instant, evening: Instant)
      returns (db: Database, added: AddStudentReply, first: MarkReply, second: MarkReply)
    requires HasRequiredFields(req) && !Truthy(req.studentId)
    requires morning.day == evening.day
    ensures added.Registered? && added.student.student_id == "STU0001"
    ensures added.qrImgUrl == QrImageUrl("STU0001")
    ensures first == Marked(added.student.name, "STU0001") && MarkSuccess(first)
    ensures second == AlreadyMarked(added.student.name) && !MarkSuccess(second) && MarkStatus(second) == 200
    ensures db.students == [added.student] && db.admins == seeded
    ensures db.attendance == [AttendanceRow("STU0001", morning, "present")]
    ensures db.Valid()
  {
    db := new Database(seeded);
    FirstGeneratedId();
    added := AddStudent(db, req);
    var scan := MarkBody(Some(GeneratedId(0)), None, None);
    assert ResolveStudentId(scan) == Some(GeneratedId(0));
    assert db.students[0].student_id == GeneratedId(0);
    assert FindStudent(db.students, GeneratedId(0)) == Some(0);
    first := MarkAttendance(db, scan, morning);
    second := MarkAttendance(db, scan, evening);
  }

  // ---------------------------------------------------------------------------
  // GET /api/students

  const PageSize: nat := 20

  /** The largest PostgreSQL `bigint`, the largest OFFSET a query accepts. */
  const MaxOffset: int := 0x7FFF_FFFF_FFFF_FFFF

  /** A listed student with its QR image path. */
  datatype StudentView = StudentView(row: StudentRow, qr_img_url: string)

  datatype ListReply =
    | StudentPage(students: seq<StudentView>, total: nat, page: int, pageSize: nat, totalPages: nat)
    | ListFailed   // 500: the database rejects an OFFSET that is negative or beyond `bigint`

  /** `parseInt(req.query.page) || 1`, given what `parseInt` returned (`None` for NaN). */
  function PageNumber(parsed: Option<int>): (page: int)
    ensures page != 0
    ensures parsed.Some? && parsed.value != 0 ==> page == parsed.value
    ensures parsed.None? || parsed.value == 0 ==> page == 1
  {
    if parsed.Some? && parsed.value != 0 then parsed.value else 1
  }

  /** `Math.ceil(total / pageSize)`. */
  function TotalPages(total: nat): (pages: nat)
    ensures pages * PageSize >= total
    ensures pages > 0 ==> (pages - 1) * PageSize < total
  {
    (total + PageSize - 1) / PageSize
  }

  /** The rows `LIMIT 20 OFFSET (page - 1) * 20` returns from a table in id order. */
  function PageRows(students: seq<StudentRow>, page: nat): (rows: seq<StudentRow>)
    requires page >= 1
    ensures |rows| <= PageSize
  {
    var offset := (page - 1) * PageSize;
    if offset >= |students| then []
    else if offset + PageSize >= |students| then students[offset..]
    else students[offset..offset + PageSize]
  }

  /**
   * `GET /api/students?page=...` over the table in id order: the page's
   * rows with their QR paths, the total, and the page count; a page
   * number below 1 makes the offset negative, and a huge one pushes it
   * past `bigint`: either way the query fails.
   */
  function ListStudents(students: seq<StudentRow>, parsedPage: Option<int>): (reply: ListReply)
    ensures reply.ListFailed? <==> PageNumber(parsedPage) < 1 || (PageNumber(parsedPage) - 1) * PageSize > MaxOffset
    ensures reply.StudentPage? ==>
      && reply.page == PageNumber(parsedPage)
      && reply.total == |students| && reply.pageSize == PageSize
      && reply.totalPages == TotalPages(|students|)
      && |reply.students| == |PageRows(students, reply.page)|
      && forall i :: 0 <= i < |reply.students| ==>
           reply.students[i].row == PageRows(students, reply.page)[i]
           && reply.students[i].qr_img_url == QrImageUrl(reply.students[i].row.student_id)
  {
    var page := PageNumber(parsedPage);
    if page < 1 || (page - 1) * PageSize > MaxOffset then ListFailed
    else
      var rows := PageRows(students, page);
      StudentPage(
        seq(|rows|, i requires 0 <= i < |rows| => StudentView(rows[i], QrImageUrl(rows[i].student_id))),
        |students|, page, PageSize, TotalPages(|students|))
  }

  /** Page `page` holds exactly the students at positions `(page-1)*20 ..` of the table. */
  lemma PageRowsAt(students: seq<StudentRow>, page: nat, i: nat)
    requires page >= 1 && i < |PageRows(students, page)|
    ensures (page - 1) * PageSize + i < |students|
    ensures PageRows(students, page)[i] == students[(page - 1) * PageSize + i]
  {
  }

  /** The first `k` pages, one after the other. */
  function FirstPages(students: seq<StudentRow>, k: nat): seq<StudentRow> {
    if k == 0 then [] else FirstPages(students, k - 1) + PageRows(students, k)
  }

  /** Where the first `k` pages of a table of `n` students end. */
  function PagesEnd(n: nat, k: nat): (end: nat)
    ensures end <= n
  {
    if k * PageSize <= n then k * PageSize else n
  }

  /** Page `k` is the stretch of the table between the ends of the first `k - 1` and `k` pages. */
  lemma PageRowsBetween(students: seq<StudentRow>, k: nat)
    requires k >= 1
    ensures PagesEnd(|students|, k - 1) <= PagesEnd(|students|, k)
    ensures PageRows(students, k) == students[PagesEnd(|students|, k - 1)..PagesEnd(|students|, k)]
  {
    assert (k - 1) * PageSize + PageSize == k * PageSize;
  }

  /**
   * Paging loses and repeats no student: pages 1 to `k` together are the
   * first `k * 20` students (or all of them).
   */
  lemma {:induction false} FirstPagesArePrefix(students: seq<StudentRow>, k: nat)
    ensures FirstPages(students, k) == students[..PagesEnd(|students|, k)]
  {
    if k > 0 {
      FirstPagesArePrefix(students, k - 1);
      PageRowsBetween(students, k);
      PrefixThenSlice(students, PagesEnd(|students|, k - 1), PagesEnd(|students|, k));
    }
  }

  lemma PrefixThenSlice<T>(s: seq<T>, lo: nat, hi: nat)
    requires lo <= hi <= |s|
    ensures s[..lo] + s[lo..hi] == s[..hi]
  {
  }

  /** Pages 1 to `totalPages` list every student exactly once, in id order; later pages are empty. */
  lemma AllPagesListEveryStudent(students: seq<StudentRow>, page: nat)
    ensures FirstPages(students, TotalPages(|students|)) == students
    ensures page > TotalPages(|students|) ==> PageRows(students, page) == []
  {
    FirstPagesArePrefix(students, TotalPages(|students|));
  }

  // ---------------------------------------------------------------------------
  // POST /dashboard (login)

  datatype LoginReply =
    | CredentialsRequired   // 400
    | InvalidCredentials    // 401
    | LoggedIn              // redirect to /students

  /** The HTTP status: 400 and 401 for the two refusals, the 302 of the redirect for a login. */
  function LoginStatus(reply: LoginReply): (status: nat)
    ensures status == 400 <==> reply.CredentialsRequired?
    ensures status == 401 <==> reply.InvalidCredentials?
    ensures status == 302 <==> reply.LoggedIn?
  {
    match reply
    case CredentialsRequired => 400
    case InvalidCredentials => 401
    case LoggedIn => 302
  }

  /** The prefix that marks a stored credential as a bcrypt hash. */
  const BcryptPrefix := "$2b$"

  /**
   * Whether `password` matches the stored credential: through bcrypt's
   * `compare` for a bcrypt hash, by plain equality for a legacy value.
   */
  predicate PasswordMatches(stored: string, password: string, compare: (string, string) -> bool) {
    if StartsWith(stored, BcryptPrefix) then compare(password, stored) else stored == password
  }

  /** A legacy plain-text credential equal to the password: the case that triggers the upgrade. */
  predicate LegacyMatch(stored: string, password: string) {
    !StartsWith(stored, BcryptPrefix) && stored == password
  }

  /** The credential stored after a login attempt: a matched legacy value is replaced by its hash. */
  function CredentialAfter(stored: string, password: string, hash: string -> string, compare: (string, string) -> bool): string {
    if LegacyMatch(stored, password) then hash(password) else stored
  }

  /**
   * A credential changes only on a successful legacy match; a failed
   * attempt and a bcrypt credential leave it as it was.
   */
  lemma CredentialChangesOnlyOnLegacyMatch(stored: string, password: string, hash: string -> string, compare: (string, string) -> bool)
    ensures CredentialAfter(stored, password, hash, compare) != stored ==>
      PasswordMatches(stored, password, compare) && !StartsWith(stored, BcryptPrefix)
    ensures !PasswordMatches(stored, password, compare) ==> CredentialAfter(stored, password, hash, compare) == stored
    ensures StartsWith(stored, BcryptPrefix) ==> CredentialAfter(stored, password, hash, compare) == stored
  {
  }

  /**
   * After the upgrade the same password still logs in, now through bcrypt,
   * and nothing is rewritten again — provided `hash` yields bcrypt text
   * that `compare` accepts for the password it was made from.
   */
  lemma UpgradeKeepsPasswordWorking(stored: string, password: string, hash: string -> string, compare: (string, string) -> bool)
    requires !StartsWith(stored, BcryptPrefix) && stored == password
    requires StartsWith(hash(password), BcryptPrefix) && compare(password, hash(password))
    ensures var upgraded := CredentialAfter(stored, password, hash, compare);
      && upgraded == hash(password)
      && PasswordMatches(upgraded, password, compare)
      && CredentialAfter(upgraded, password, hash, compare) == upgraded
  {
  }

  /** `UPDATE admins SET password_hash = $1 WHERE id = $2`. */
  function SetPasswordHash(admins: seq<AdminRow>, id: nat, h: string): (updated: seq<AdminRow>)
    ensures |updated| == |admins|
    ensures forall i :: 0 <= i < |admins| ==>
      updated[i] == if admins[i].id == id then admins[i].(password_hash := h) else admins[i]
  {
    seq(|admins|, i requires 0 <= i < |admins| =>
      if admins[i].id == id then admins[i].(password_hash := h) else admins[i])
  }

  /** `SELECT * FROM admins WHERE username = $1`, first row. */
  function FindAdmin(admins: seq<AdminRow>, username: string): (k: Option<nat>)
    ensures k.None? <==> forall i :: 0 <= i < |admins| ==> admins[i].username != username
    ensures k.Some? ==> k.value < |admins| && admins[k.value].username == username
    ensures k.Some? ==> forall j :: 0 <= j < k.value ==> admins[j].username != username
  {
    FindFirst(admins, (a: AdminRow) => a.username == username)
  }

  /**
   * `POST /dashboard`: 400 without both credentials, 401 for an unknown
   * user or a wrong password, otherwise a redirect; a matching legacy
   * plain-text credential is replaced by `hash(password)`, and nothing
   * else is written.
   */
  method Login(db: Database, username: Option<string>, password: Option<string>,
               hash: string -> string, compare: (string, string) -> bool) returns (reply: LoginReply)
    modifies db
    ensures old(db.Valid()) ==> db.Valid()
    ensures db.students == old(db.students) && db.attendance == old(db.attendance)
    ensures !Truthy(username) || !Truthy(password) ==> reply == CredentialsRequired && db.admins == old(db.admins)
    ensures Truthy(username) && Truthy(password) && FindAdmin(old(db.admins), username.value).None? ==>
      reply == InvalidCredentials && db.admins == old(db.admins)
    ensures Truthy(username) && Truthy(password) && FindAdmin(old(db.admins), username.value).Some? ==>
      var user := old(db.admins)[FindAdmin(old(db.admins), username.value).value];
      && (reply == LoggedIn <==> PasswordMatches(user.password_hash, password.value, compare))
      && (reply != LoggedIn ==> reply == InvalidCredentials)
      && (if LegacyMatch(user.password_hash, password.value)
          then db.admins == SetPasswordHash(old(db.admins), user.id, hash(password.value))
          else db.admins == old(db.admins))
      && |db.admins| == |old(db.admins)|
      && db.admins[FindAdmin(old(db.admins), username.value).value].password_hash
         == CredentialAfter(user.password_hash, password.value, hash, compare)
  {
    if !Truthy(username) || !Truthy(password) {
      return CredentialsRequired;
    }
    var result := FindAdmin(db.admins, username.value);
    if result.None? {
      return InvalidCredentials;
    }
    var user := db.admins[result.value];
    var passwordMatches := false;
    if StartsWith(user.password_hash, BcryptPrefix) {
      passwordMatches := compare(password.value, user.password_hash);
    } else {
      passwordMatches := user.password_hash == password.value;
      if passwordMatches {
        var hashedPassword := hash(password.value);
        db.admins := SetPasswordHash(db.admins, user.id, hashedPassword);
      }
    }
    reply := if passwordMatches then LoggedIn else InvalidCredentials;
  }

  /** Rewriting a hash keeps every username, so every username lookup finds the same row. */
  lemma FindAdminAfterSetPasswordHash(admins: seq<AdminRow>, id: nat, h: string, username: string)
    ensures FindAdmin(SetPasswordHash(admins, id, h), username) == FindAdmin(admins, username)
  {
    var updated := SetPasswordHash(admins, id, h);
    assert forall i :: 0 <= i < |admins| ==> updated[i].username == admins[i].username;
  }

  /**
   * No lock-out: two logins with the password an admin still has in plain
   * text both succeed. The first stores the password's bcrypt hash; the
   * second is checked by bcrypt and writes nothing. This holds when `hash`
   * yields bcrypt text that `compare` accepts for its own password.
   */
  method LegacyLoginTwice(db: Database, username: string, password: string,
                          hash: string -> string, compare: (string, string) -> bool)
      returns (first: LoginReply, second: LoginReply)
    requires username != "" && password != ""
    requires FindAdmin(db.admins, username).Some?
    requires db.admins[FindAdmin(db.admins, username).value].password_hash == password
    requires !StartsWith(password, BcryptPrefix)
    requires StartsWith(hash(password), BcryptPrefix) && compare(password, hash(password))
    modifies db
    ensures first == LoggedIn && second == LoggedIn
    ensures FindAdmin(db.admins, username) == FindAdmin(old(db.admins), username)
    ensures db.admins[FindAdmin(db.admins, username).value].password_hash == hash(password)
    ensures db.admins
      == SetPasswordHash(old(db.admins), old(db.admins)[FindAdmin(old(db.admins), username).value].id, hash(password))
  {
    var k := FindAdmin(db.admins, username).value;
    var id := db.admins[k].id;
    first := Login(db, Some(username), Some(password), hash, compare);
    FindAdminAfterSetPasswordHash(old(db.admins), id, hash(password), username);
    var upgraded := db.admins;
    assert upgraded[k].password_hash == hash(password);
    second := Login(db, Some(username), Some(password), hash, compare);
    assert db.admins == upgraded;
  }
}

=== FILE: server_clean.dfy ===
/**
 * The simplified registration handler of server_clean.js: validation, an
 * always-generated `STU####` id, defaults for the optional fields, one
 * INSERT, and the JSON reply. Its one effect, the INSERT, is modelled as
 * the new contents of the `students` table.
 */
module ServerClean {
  import opened Js
  import opened Tables

  datatype CleanReply =
    | MissingRequiredFields                                                           // 400
    | Registered(studentId: string, name: string, studentClass: string, division: string)  // 200
    | RegistrationError                                                               // 500

  /** The reply and the `students` table after the request. */
  datatype CleanOutcome = CleanOutcome(reply: CleanReply, students: seq<StudentRow>)

  /** The HTTP status: 400 for the validation failure, 500 from the `catch`, 200 for a registration. */
  function CleanStatus(reply: CleanReply): (status: nat)
    ensures status == 200 <==> reply.Registered?
    ensures status == 400 <==> reply.MissingRequiredFields?
    ensures status == 500 <==> reply.RegistrationError?
  {
    match reply
    case MissingRequiredFields => 400
    case Registered(_, _, _, _) => 200
    case RegistrationError => 500
  }

  /** The `success` flag, true exactly for a 200. */
  function CleanSuccess(reply: CleanReply): (success: bool)
    ensures success <==> CleanStatus(reply) == 200
  {
    reply.Registered?
  }

  /**
   * The `error` field: the fixed validation text for a 400, and for a 500
   * the message of the error the INSERT threw, `dbMessage`, which the
   * database driver composes; a registration carries none.
   */
  function CleanError(reply: CleanReply, dbMessage: string): (error: Option<string>)
    ensures error.None? <==> CleanSuccess(reply)
    ensures reply.RegistrationError? ==> error == Some(dbMessage)
    ensures reply.MissingRequiredFields? ==> error == Some("Missing required fields")
  {
    match reply
    case MissingRequiredFields => Some("Missing required fields")
    case Registered(_, _, _, _) => None
    case RegistrationError => Some(dbMessage)
  }

  /** `${firstName.toLowerCase()}.${lastName.toLowerCase()}@student.edu`. */
  function DefaultEmail(firstName: string, lastName: string): (email: string)
  {
    Lower(firstName) + "." + Lower(lastName) + "@student.edu"
  }

  /** The row the INSERT writes: generated id, untrimmed full name, the parent's mobile as phone, defaults. */
  function CleanRow(req: Registration, stored: nat): (row: StudentRow)
    requires HasRequiredFields(req)
  {
    var first, last := req.firstName.value, req.lastName.value;
    StudentRow(
      GeneratedId(stored),
      first + " " + last,
      first,
      last,
      req.parent_mobile.value,
      Some(OrDefault(req.email, DefaultEmail(first, last))),
      req.parent_mobile.value,
      req.studentClass.value,
      req.division.value,
      Some(OrDefault(req.dob, "2000-01-01")),
      Some(OrDefault(req.gender, "N/A")),
      Some(OrDefault(req.address1, "")),
      Some(OrDefault(req.address2, "")),
      Some(OrDefault(req.city, "")),
      Some(OrDefault(req.state, "")))
  }

  /**
   * `POST /add-student` of server_clean.js against the table `students`:
   * 400 and no insert when a required field is missing; 500 and no insert
   * when the generated id violates the UNIQUE `student_id` constraint;
   * otherwise the row is appended and the reply echoes it.
   */
  function Register(req: Registration, students: seq<StudentRow>): (out: CleanOutcome)
    ensures !HasRequiredFields(req) ==> out.reply == MissingRequiredFields && out.students == students
    ensures out.reply.RegistrationError? <==> HasRequiredFields(req) && IdTaken(students, GeneratedId(|students|))
    ensures out.reply.RegistrationError? ==> out.students == students
    ensures out.reply.Registered? <==> HasRequiredFields(req) && !IdTaken(students, GeneratedId(|students|))
    ensures out.reply.Registered? ==>
      && HasRequiredFields(req)
      && out.students == students + [CleanRow(req, |students|)]
      && out.reply.studentId == GeneratedId(|students|)
  {
    if !HasRequiredFields(req) then CleanOutcome(MissingRequiredFields, students)
    else
      var row := CleanRow(req, |students|);
      if FindStudent(students, row.student_id).Some? then CleanOutcome(RegistrationError, students)
      else CleanOutcome(Registered(row.student_id, row.name, row.studentClass, row.division), students + [row])
  }

  /**
   * The stored row: required fields as given, `STU` id from the count,
   * name `first + " " + last` untrimmed, both phone columns the parent's
   * mobile, and each optional field either given or defaulted.
   */
  lemma CleanRowSpec(req: Registration, stored: nat)
    requires HasRequiredFields(req)
    ensures var row := CleanRow(req, stored);
      && row.student_id == GeneratedId(stored) && StartsWith(row.student_id, "STU")
      && row.name == req.firstName.value + " " + req.lastName.value
      && row.first_name == req.firstName.value && row.last_name == req.lastName.value
      && row.phone == req.parent_mobile.value && row.parent_mobile == req.parent_mobile.value
      && row.studentClass == req.studentClass.value && row.division == req.division.value
      && (Truthy(req.email) ==> row.email == req.email)
      && (!Truthy(req.email) ==> row.email == Some(DefaultEmail(req.firstName.value, req.lastName.value)))
      && (Truthy(req.dob) ==> row.dob == req.dob) && (!Truthy(req.dob) ==> row.dob == Some("2000-01-01"))
      && (Truthy(req.gender) ==> row.gender == req.gender) && (!Truthy(req.gender) ==> row.gender == Some("N/A"))
      && (Truthy(req.address1) ==> row.address1 == req.address1) && (!Truthy(req.address1) ==> row.address1 == Some(""))
      && (Truthy(req.address2) ==> row.address2 == req.address2) && (!Truthy(req.address2) ==> row.address2 == Some(""))
      && (Truthy(req.city) ==> row.city == req.city) && (!Truthy(req.city) ==> row.city == Some(""))
      && (Truthy(req.state) ==> row.state == req.state) && (!Truthy(req.state) ==> row.state == Some(""))
  {
    var id := GeneratedId(stored);
    assert id[..3] == "STU";
  }

  /** A synthesised email: the lowered first name, a dot, the lowered last name, `@student.edu`. */
  lemma DefaultEmailSpec(firstName: string, lastName: string)
    ensures var e := DefaultEmail(firstName, lastName);
      && |e| == |firstName| + |lastName| + 13
      && e[|e| - 12..] == "@student.edu"
      && e[|firstName|] == '.'
      && e[..|firstName|] == Lower(firstName)
      && e[|firstName| + 1..|firstName| + 1 + |lastName|] == Lower(lastName)
      && forall i :: 0 <= i < |firstName| ==> e[i] == LowerChar(firstName[i])
  {
    var e := DefaultEmail(firstName, lastName);
    var suffix := "@student.edu";
    assert |suffix| == 12;
    DottedParts(Lower(firstName), Lower(lastName), suffix);
    assert e[..|firstName|] == Lower(firstName);
  }

  /** `a + "." + b + suffix` splits back into its four parts. */
  lemma DottedParts(a: string, b: string, suffix: string)
    ensures var e := a + "." + b + suffix;
      && |e| == |a| + 1 + |b| + |suffix|
      && e[..|a|] == a && e[|a|] == '.'
      && e[|a| + 1..|a| + 1 + |b|] == b
      && e[|a| + 1 + |b|..] == suffix
  {
    var e := a + "." + b + suffix;
    assert e == a + ("." + b + suffix);
    assert e[|a|..] == "." + b + suffix;
    assert e[|a| + 1..] == b + suffix;
  }

  /** The reply echoes the stored row's id, name, class and division. */
  lemma RegisteredReplyEchoesRow(req: Registration, students: seq<StudentRow>)
    ensures var out := Register(req, students);
      out.reply.Registered? ==>
        var row := out.students[|out.students| - 1];
        && out.reply.studentId == row.student_id && out.reply.name == row.name
        && out.reply.studentClass == row.studentClass && out.reply.division == row.division
        && out.reply.name == req.firstName.value + " " + req.lastName.value
  {
  }

  /** No caller-supplied `studentId`, `name` or `phone` is read. */
  lemma IgnoresCallerIdNameAndPhone(req: Registration, students: seq<StudentRow>,
                                    studentId: Option<string>, name: Option<string>, phone: Option<string>)
    ensures Register(req.(studentId := studentId, name := name, phone := phone), students) == Register(req, students)
  {
  }

  /** The table keeps unique student ids, as the UNIQUE constraint demands. */
  lemma RegisterKeepsIdsUnique(req: Registration, students: seq<StudentRow>)
    requires UniqueStudentIds(students)
    ensures UniqueStudentIds(Register(req, students).students)
    ensures |Register(req, students).students| <= |students| + 1
  {
    var out := Register(req, students);
    if out.reply.Registered? {
      var row := CleanRow(req, |students|);
      assert !IdTaken(students, row.student_id);
      forall i, j | 0 <= i < j < |out.students|
        ensures out.students[i].student_id != out.students[j].student_id
      {
        assert out.students[i] == students[i];
        if j == |students| {
          assert out.students[j] == row;
        } else {
          assert out.students[j] == students[j];
        }
      }
    }
  }

  /** On an empty table every complete registration succeeds, as `STU0001`. */
  lemma FirstRegistration(req: Registration)
    requires HasRequiredFields(req)
    ensures Register(req, []).reply
      == Registered("STU0001", req.firstName.value + " " + req.lastName.value, req.studentClass.value, req.division.value)
    ensures Register(req, []).students == [CleanRow(req, 0)]
  {
    FirstGeneratedId();
  }

  /**
   * Once a stored id takes the next generated id, every complete
   * registration is refused with 500 and nothing is inserted, so the count,
   * and with it the generated id, never moves again.
   */
  lemma CollisionBlocksRegistration(req: Registration, other: Registration, students: seq<StudentRow>)
    requires HasRequiredFields(req) && IdTaken(students, GeneratedId(|students|))
    ensures Register(req, students) == CleanOutcome(RegistrationError, students)
    ensures !Register(other, Register(req, students).students).reply.Registered?
  {
  }
}

=== FILE: tables.dfy ===
/**
 * The PostgreSQL tables that the registration, attendance and login
 * handlers of server.js and server_clean.js read and write, seen as
 * ordered sequences of rows, together with the registration request body
 * and the `STU####` student-id scheme both handlers share.
 */
module Tables {
  import opened Js

  /** Body of a `POST /add-student` request: every field may be absent. */
  datatype Registration = Registration(
    studentId: Option<string>,
    firstName: Option<string>,
    lastName: Option<string>,
    name: Option<string>,
    phone: Option<string>,
    email: Option<string>,
    parent_mobile: Option<string>,
    studentClass: Option<string>,
    division: Option<string>,
    dob: Option<string>,
    gender: Option<string>,
    address1: Option<string>,
    address2: Option<string>,
    city: Option<string>,
    state: Option<string>)

  /** The five fields both registration handlers insist on: all present and non-empty. */
  predicate HasRequiredFields(req: Registration) {
    Truthy(req.firstName) && Truthy(req.lastName) && Truthy(req.studentClass)
    && Truthy(req.division) && Truthy(req.parent_mobile)
  }

  /** A row of the `students` table; nullable columns are `Option`s. */
  datatype StudentRow = StudentRow(
    student_id: string,
    name: string,
    first_name: string,
    last_name: string,
    phone: string,
    email: Option<string>,
    parent_mobile: string,
    studentClass: string,
    division: string,
    dob: Option<string>,
    gender: Option<string>,
    address1: Option<string>,
    address2: Option<string>,
    city: Option<string>,
    state: Option<string>)

  /** A row of the `attendance` table: `timestamp` defaults to the time of the insert. */
  datatype AttendanceRow = AttendanceRow(student_id: string, timestamp: Instant, status: string)

  /** A row of the `admins` table. */
  datatype AdminRow = AdminRow(id: nat, username: string, password_hash: string)

  /** `student_id` is declared UNIQUE. */
  predicate UniqueStudentIds(rows: seq<StudentRow>) {
    forall i, j :: 0 <= i < j < |rows| ==> rows[i].student_id != rows[j].student_id
  }

  /** Some row carries `id` as its `student_id`. */
  predicate IdTaken(rows: seq<StudentRow>, id: string) {
    exists i :: 0 <= i < |rows| && rows[i].student_id == id
  }

  /** `SELECT * FROM students WHERE student_id = $1`, first row: the index of that student, if any. */
  function FindStudent(rows: seq<StudentRow>, id: string): (k: Option<nat>)
    ensures k.None? <==> !IdTaken(rows, id)
    ensures k.Some? ==> k.value < |rows| && rows[k.value].student_id == id
  {
    FindFirst(rows, (r: StudentRow) => r.student_id == id)
  }

  /** Whether `id` already has an attendance row whose timestamp falls on `day`. */
  predicate MarkedOn(rows: seq<AttendanceRow>, id: string, day: int) {
    exists i :: 0 <= i < |rows| && rows[i].student_id == id && rows[i].timestamp.day == day
  }

  /** No student has two attendance rows on the same day. */
  predicate OneMarkPerDay(rows: seq<AttendanceRow>) {
    forall i, j :: 0 <= i < j < |rows| ==>
      !(rows[i].student_id == rows[j].student_id && rows[i].timestamp.day == rows[j].timestamp.day)
  }

  /** Appending a mark for a student with none that day keeps one mark per student per day. */
  lemma {:induction false} AppendFreshMark(rows: seq<AttendanceRow>, row: AttendanceRow)
    requires OneMarkPerDay(rows)
    requires !MarkedOn(rows, row.student_id, row.timestamp.day)
    ensures OneMarkPerDay(rows + [row])
    ensures MarkedOn(rows + [row], row.student_id, row.timestamp.day)
  {
    var r := rows + [row];
    forall i, j | 0 <= i < j < |r|
      ensures !(r[i].student_id == r[j].student_id && r[i].timestamp.day == r[j].timestamp.day)
    {
      assert r[i] == rows[i];
      if j < |rows| {
        assert r[j] == rows[j];
      } else {
        assert r[j] == row;
      }
    }
    assert r[|rows|] == row;
  }

  /** The tables the handlers touch. */
  class Database {
    var students: seq<StudentRow>
    var attendance: seq<AttendanceRow>
    var admins: seq<AdminRow>

    /** What the schema's UNIQUE constraint and the mark-attendance check keep true. */
    ghost predicate Valid()
      reads this
    {
      UniqueStudentIds(students) && OneMarkPerDay(attendance)
    }

    /** Empty student and attendance tables, with the seeded admin accounts. */
    constructor (seeded: seq<AdminRow>)
      ensures Valid()
      ensures students == [] && attendance == [] && admins == seeded
    {
      students := [];
      attendance := [];
      admins := seeded;
    }
  }

  // ---------------------------------------------------------------------------
  // Auto-generated student ids

  /**
   * `STU${count.toString().padStart(4, '0')}` where `count` is the number
   * of students already stored plus one.
   */
  function GeneratedId(stored: nat): (id: string)
    ensures |id| >= 7 && id[..3] == "STU"
    ensures AllDigits(id[3..])
  {
    "STU" + PadStart(NatToString(stored + 1), 4, '0')
  }

  /** The registration number an id of the form `STU` + digits encodes. */
  function GeneratedNumber(id: string): Option<nat> {
    if |id| >= 3 && id[..3] == "STU" && AllDigits(id[3..]) then Some(DigitsValue(id[3..])) else None
  }

  /** A generated id decodes back to the student count it was made from, plus one. */
  lemma GeneratedIdRoundTrip(stored: nat)
    ensures GeneratedNumber(GeneratedId(stored)) == Some(stored + 1)
  {
    var digits := NatToString(stored + 1);
    var id := GeneratedId(stored);
    assert id[3..] == PadStart(digits, 4, '0');
    ZeroPadValue(digits, 4);
    NatToStringRoundTrip(stored + 1);
  }

  /** Different student counts give different ids. */
  lemma GeneratedIdInjective(a: nat, b: nat)
    ensures GeneratedId(a) == GeneratedId(b) <==> a == b
  {
    GeneratedIdRoundTrip(a);
    GeneratedIdRoundTrip(b);
  }

  /** Up to 9999 students the id has exactly four digits; beyond that it simply grows. */
  lemma GeneratedIdWidth(stored: nat)
    ensures stored + 1 < 10000 ==> |GeneratedId(stored)| == 7
    ensures stored + 1 >= 10000 ==> |GeneratedId(stored)| == 3 + |NatToString(stored + 1)|
  {
    if stored + 1 < 10000 {
      assert 10000 == Pow10(4);
      NatToStringLength(stored + 1, 4);
    } else {
      assert NatToString(stored + 1)[0] != '0';
      NatToStringLonger(stored + 1);
    }
  }

  /** An empty table gives the first student `STU0001`. */
  lemma FirstGeneratedId()
    ensures GeneratedId(0) == "STU0001"
  {
    assert NatToString(1) == "1";
    assert Repeat('0', 3) == "000" by {
      assert Repeat('0', 1) == "0";
      assert Repeat('0', 2) == "00";
    }
  }

  /** The 10000th student gets `STU10000`: `padStart` never truncates. */
  lemma FiveDigitGeneratedId()
    ensures GeneratedId(9999) == "STU10000"
  {
    assert NatToString(1) == "1";
    assert NatToString(10) == "10";
    assert NatToString(100) == "100";
    assert NatToString(1000) == "1000";
    assert NatToString(10000) == "10000";
  }

  /**
   * The generated id is free whenever no stored id encodes a number
   * beyond the current count, e.g. when every id so far was generated.
   */
  lemma GeneratedIdFresh(rows: seq<StudentRow>)
    requires forall i :: 0 <= i < |rows| ==>
      (GeneratedNumber(rows[i].student_id).Some? ==> GeneratedNumber(rows[i].student_id).value <= |rows|)
    ensures !IdTaken(rows, GeneratedId(|rows|))
  {
    GeneratedIdRoundTrip(|rows|);
  }

  /**
   * The count-based id is not always free: a hand-picked id can take it,
   * here `STU0002` stored as the only student.
   */
  lemma GeneratedIdCanCollide(row: StudentRow)
    requires row.student_id == "STU0002"
    ensures IdTaken([row], GeneratedId(1))
  {
    assert NatToString(2) == "2";
    assert [row][0].student_id == GeneratedId(1);
  }

  /** `/qrcodes/${student_id}.png`: where a student's QR image is served from. */
  function QrImageUrl(studentId: string): (url: string)
    ensures StartsWith(url, "/qrcodes/") && |url| == |studentId| + 13
    ensures url[9..|url| - 4] == studentId && url[|url| - 4..] == ".png"
  {
    "/qrcodes/" + studentId + ".png"
  }

  /** Distinct students have distinct QR image paths. */
  lemma QrImageUrlInjective(a: string, b: string)
    ensures QrImageUrl(a) == QrImageUrl(b) <==> a == b
  {
    if QrImageUrl(a) == QrImageUrl(b) {
      var u := QrImageUrl(a);
      assert a == u[9..|u| - 4];
    }
  }
}
